=== FILE: README.md ===
# drawings: a Dafny model of `drawing.py`

`drawing.py` is a small teaching library for drawing on an ipycanvas widget
in a Jupyter notebook. A `Drawing` is a canvas holding an ordered list of
shapes (`Point`, `Circle`, `Line`, `Polygon`, `Text`, `Rectangle`,
`CrudeLine`); rendering clears the canvas, paints the background and the
border, and then asks each shape to paint itself. `Point` doubles as a 2D
vector with `+`, `-`, unary `-`, `*` (scalar or dot product) and `==`.

This project models the deterministic part of that library as pure Dafny
functions and proves properties of them:

- `wrappers.dfy` (`Wrappers`): `Option`, `Result` and the two error cases
  the model makes explicit (division by zero, a zero-length crude line).
- `canvas.dfy` (`Canvas`): the canvas calls as a `Command` datatype, a
  rendering as a `Trace` (sequence of commands), Python truthiness of a
  colour, and the trace properties proved below: save/restore balance, fill
  and stroke styles set before use, fills before strokes.
- `points.dfy` (`Points`): the `Point` vector algebra, with `_is_number`
  dispatch in `__mul__` modelled by an `Operand` classification.
- `averages.dfy` (`Averages`): `_average`, used for the polygon centroid.
- `crude_line.dfy` (`CrudeLines`): the control-point arithmetic of
  `CrudeLine.__init__`, with the random draws, the unit direction and the
  length of the line supplied as parameters.
- `shapes.dfy` (`Shapes`): the shape constructors and each `_render` as the
  trace of canvas calls it makes; `Shape.render`.
- `drawing.py`'s `Drawing` class in `drawing.dfy` (`Drawings`): option
  defaults, `add`, `_init_render`, `render`, and the file name rule of
  `write_file`.

Points worth knowing about the library's behaviour:

- `drawing.py` applies no coordinate transformation: every shape hands its
  own coordinates to the canvas unchanged.
- A rectangle's width and height are the signed differences `p1.x - p0.x`
  and `p1.y - p0.y`, not their absolute values.
- `Shape.render` looks at `self.drawing`, an attribute that only `add` (and
  `clone`) set; the model gives every shape an `owner` that is `None` until
  `add` sets it, and a shape with no owner renders nothing.

## Model

| member | source | states |
|---|---|---|
| Points.Add | drawing.py:283-284 | The sum carries the left operand's colour, and subtracting the right operand from it gives back the left one (under `__eq__`). |
| Points.Sub | drawing.py:285-286 | The difference carries the left colour and adding the subtrahend back restores the minuend, coordinate by coordinate. |
| Points.Neg | drawing.py:287-288 | The negation keeps the colour and adds to the point to give the origin. |
| Points.Mul | drawing.py:293-301 | A number k gives the point (k·x, k·y) in self's colour, a Point q gives the number x·q.x + y·q.y, and anything else gives NotImplemented; each kind of operand gives exactly its kind of result. |
| Points.RMul | drawing.py:291-292 | `k * p` for a number k is (k·p.x, k·p.y) in p's colour, `q * p` for a Point q is q.x·p.x + q.y·p.y, anything else NotImplemented. |
| Points.Times | drawing.py:291-301 | Python's `*` with a Point on either side: two Points give their dot product, a Point and a number (in either order) give the scaled Point in the Point's colour, and nothing else gives either. |
| Points.AddCommutes | drawing.py:283-290 | `a + b == b + a` under `__eq__`; the two sums are identical values exactly when the colours agree. |
| Points.DotCommutes | drawing.py:291-301 | `a * b == b * a` for two Points, and both are the dot product. |
| Points.ScalarCommutes | drawing.py:291-301 | `k * a` (through `__rmul__`) equals `a * k`: both are the scalar product with a's colour. |
| Points.SubIsAddNeg | drawing.py:283-288 | `a - b` is the same value as `a + (-b)`, colour included. |
| Points.SubSelfIsOrigin | drawing.py:285-286 | `a - a == Point(0, 0)` under `__eq__`. |
| Points.EqIsCoordinateEquality | drawing.py:289-290 | `__eq__` is reflexive, symmetric and transitive, and two points are identical exactly when they are `__eq__` and share a colour: it ignores colour and nothing else. |
| Points.PinnedPointValues | drawing.py:303-308 | The module's asserts: `(3,4)+(5,-1)` has x 8, the dot product is 11, `(3,4)*2 == (6,8)`, `3*(5,-1) == (15,-3)`. |
| Averages.Average | drawing.py:245-247 | Fails with division by zero exactly on the empty sequence; otherwise the mean times the length is the sum. |
| Averages.AverageWithinBounds | drawing.py:245-247 | The mean of a non-empty sequence lies between any lower and upper bound of its elements. |
| Averages.AverageShift | drawing.py:245-247 | Adding c to every element adds c to the mean. |
| Averages.PinnedAverages | drawing.py:249-250 | The module's asserts: the average of 1, 2, 3 is 2 and of 10.0, 14.0 is 12.0. |
| CrudeLines.ControlPoints | drawing.py:473-497 | Computing A, B, C, D fails exactly when p0 and p1 coincide (the direction cannot be normalised). |
| CrudeLines.ControlPointFrame | drawing.py:485-493 | A control point placed with fraction `para` and offset `perp` lies `para * length` along the line from p0 and `perp` across it. |
| CrudeLines.EndPointFrame | drawing.py:481-483 | With the direction and length of p1 - p0, p1 lies `length` along the line and 0 across it. |
| CrudeLines.DirectionSeparates | drawing.py:439-442 | A unit direction with positive length between p0 and p1 exists only when the points differ. |
| CrudeLines.JitterWithin | drawing.py:477-479 | Jittering an end point by a draw from the open unit disk scaled by crudity keeps it strictly within distance crudity (for nonzero crudity). |
| CrudeLines.EndsNearEndpoints | drawing.py:477-497 | A lies within crudity of p0 and D within crudity of p1. |
| CrudeLines.AlongRange | drawing.py:485-490 | `0.45 + 0.1 * r` with r in [0, 1) is in [0.45, 0.55), and likewise [0.65, 0.75) for C. |
| CrudeLines.AcrossRange | drawing.py:486-491 | `0.3 * (1 + r) * crudity` with r in [0, 1) is in [0.3 * crudity, 0.6 * crudity). |
| CrudeLines.PlacedControlPoint | drawing.py:485-488 | A point placed by the B (or C) formula lies in the stated band along the line and at the stated distance across it. |
| CrudeLines.ControlPointsPlacement | drawing.py:485-493 | B lies between 0.45 and 0.55 of the length along the line and C between 0.65 and 0.75, both 0.3 to 0.6 crudity to one side. |
| CrudeLines.ZeroCrudityIsStraight | drawing.py:477-497 | With crudity 0, A is p0, D is p1, and B and C lie on the segment strictly between them, B first. |
| CrudeLines.AnchorAsWritten | drawing.py:499-500 | The anchor as written: its x is the midpoint's x and its y exceeds the midpoint's y by half of A's y. |
| CrudeLines.AnchorAsWrittenOffCentre | drawing.py:499-500 | The anchor as written, `y=(ya+yd/2)`, is the midpoint's y exactly when A lies on the x axis; A = D = (0, 2) gives y = 3. |
| CrudeLines.Anchor | drawing.py:499-500 | The corrected anchor is equidistant from A and D, and is A itself when A and D coincide. |
| Shapes.PointShape | drawing.py:272-273 | A Point as a shape sits at its own coordinates with its colour and no outline. |
| Shapes.Circle | drawing.py:312-316 | A circle is anchored at its centre, keeps its radius, and stores the given colour, outline and line width. |
| Shapes.Line | drawing.py:327-332 | A line is anchored at the midpoint of its end points, keeps them, and stores the given colour and line width with no outline. |
| Shapes.Polygon | drawing.py:342-349 | Construction fails with division by zero exactly for an empty point list; otherwise the anchor is the centroid (times the count it is the coordinate sums) and the given colour, outline and line width are stored. |
| Shapes.Text | drawing.py:368-373 | A text is anchored at its position, keeps text and face, and stores the given colour with no outline and the default line width. |
| Shapes.Rectangle | drawing.py:381-388 | The stored width and height are the signed extents: p0 plus them is p1; the anchor is the midpoint; the given colour, outline and line width are stored. |
| Shapes.CrudeLine | drawing.py:473-501 | Construction fails exactly for a zero-length line; otherwise the shape holds the computed curve, the given colour and line width with no outline, and is anchored at the midpoint of A and D (the corrected anchor). |
| Shapes.CrudeLineAsWritten | drawing.py:473-501 | The constructor as written: the same shape as `CrudeLine` except that the anchor's y is higher by half of A's y. |
| Shapes.CrudeLineAnchorNotDrawn | drawing.py:499-509 | The crude line as written and as corrected make exactly the same canvas calls: the anchor is never drawn. |
| Shapes.PolygonPath | drawing.py:350-356 | No points, no path; otherwise begin_path, move_to the first point, one line_to per remaining point in order, close_path. |
| Shapes.LineTos | drawing.py:353-354 | One line_to per point, in order. |
| Shapes.ShapeTrace | drawing.py:280-509 | Each `_render` (Point, Circle, Line, Polygon, Text, Rectangle, CrudeLine) neither saves nor restores; dots and text only fill, lines and crude lines only stroke, in a path from begin_path to stroke. Every fill style set is the shape's colour; every stroke style is its outline for circles, rectangles and polygons and its colour for lines and crude lines; every line width is the shape's own and a circle sets none. A dot fills the unit arc at its position, a circle paints only its arc of its radius, a rectangle only its corner, width and height, a polygon traces its path and then paints only with fill and stroke; a line moves to its first point and draws to its second; text sets its font and fills its string at its position; a crude line moves to the curve's start and draws the curve through its three other control points. The line width is set exactly for lines, crude lines, and rectangles and polygons with a truthy outline; no shape clears the canvas; a dot's or text's one fill is its last call. |
| Shapes.StrokedPath | drawing.py:333-339 | The six calls of a line or crude line: begin_path, then the width and colour set, move_to the start, the one segment, and a stroke as the last call; it never fills or clears and always sets the line width. |
| Shapes.FilledMark | drawing.py:374-377 | The calls of a dot or text: the font, if any, then the fill colour, and a single fill as the last call; no stroke, stroke style, line width or clear. |
| Shapes.PaintedPath | drawing.py:357-365 | A polygon's calls begin with its path and then paint only with fill and stroke, in its own colours and width; the width is set exactly when the outline is truthy, and nothing clears the canvas. |
| Shapes.PaintedContents | drawing.py:317-323 | The conditional fill and outline set only the given fill colour, outline colour and width, and paint only with the given fill and stroke commands. |
| Shapes.ShapeRender | drawing.py:237-241 | A shape with a drawing renders its calls between save and restore, balanced; one without renders nothing. |
| Shapes.ShapeTraceIgnoresOwner | drawing.py:237-242 | What a shape draws does not depend on the drawing that holds it. |
| Shapes.PathIsUnpainted | drawing.py:350-356 | The polygon path neither paints nor touches the save stack: it holds only begin_path, move_to, line_to and close_path. |
| Shapes.ShapeTraceWellFormed | drawing.py:317-398 | Every shape's calls leave the save stack alone, set the fill or stroke style before painting with it, and paint fills before strokes. |
| Shapes.PolygonFacts | drawing.py:357-365 | A polygon fills exactly when its colour is truthy and strokes exactly when its outline is, after the path. |
| Shapes.FillAndOutlineIff | drawing.py:317-398 | Circles, rectangles and polygons fill exactly when `color` is truthy and stroke exactly when `outline` is, fill first. |
| Shapes.RectangleSpansCorners | drawing.py:386-398 | The fill_rect appears exactly when `color` is truthy and the stroke_rect exactly when `outline` is, and every painted box starts at p0 and ends at p1 (signed extents, no normalisation). |
| Shapes.PolygonCentroidInBox | drawing.py:344-346 | The polygon's anchor lies within any box holding all its points. |
| Shapes.ZeroCrudityLineRuns | drawing.py:502-508 | A crude line of crudity 0 moves to p0, ends its Bézier curve at p1, and strokes without filling. |
| Canvas.BalancedWrap | drawing.py:238-241 | Wrapping a balanced sequence of calls in save/restore keeps it balanced. |
| Drawings.Merge | drawing.py:72-74 | A missing or None option takes the default; any other value is kept. |
| Drawings.NewDrawing | drawing.py:67-83 | A new drawing is empty and has the given size; background, border, border width, cache_default and sync_image_data each take the default when missing or None and keep any other given value; caching falls back to True when missing and keeps a given value, None included. |
| Drawings.NewDefaultSizeDrawing | drawing.py:67 | `Drawing(**kwargs)` without a size is 500 by 500 and otherwise as `NewDrawing`. |
| Drawings.MergeColor | drawing.py:69-74 | Corrected merge for colours: missing takes the default, an explicit None stays None. |
| Drawings.NewDrawingIntended | drawing.py:69-83 | The drawing as the `border=None  # omit border` example intends: `border=None` and `background=None` give falsy colours, everything else as `NewDrawing`; background and border are the given colour when one is given and the default otherwise. |
| Drawings.Add | drawing.py:85-89 | Components grow by one; the earlier ones are unchanged and in order; the new last one is the shape, now belonging to this drawing; nothing else changes. |
| Drawings.AddKeepsOwned | drawing.py:85-89 | If every component belongs to the drawing, that stays true after `add`. |
| Drawings.NewDrawingOwned | drawing.py:82-89 | A new drawing (as written or as intended) owns all its (no) components. |
| Drawings.Prologue | drawing.py:97-109 | Save, clear, ..., restore, balanced; fill_rect(0,0,width,height) appears exactly when the background is truthy and stroke_rect(0,0,width,height) exactly when the border is; the fill comes before the stroke, each after its style is set; the styles set are the drawing's background, border and border width and no others; between the clear and the restore every call is one of the frame's five (fill colour, fill_rect, line width, stroke colour, stroke_rect), so nothing else is drawn or cleared. |
| Drawings.FrameOrder | drawing.py:99-107 | The frame calls leave the save stack alone, set each style before painting with it, and fill the background before stroking the border. |
| Drawings.FrameContents | drawing.py:99-107 | The frame fills the canvas exactly when the background is truthy and strokes its edge exactly when the border is, setting only the drawing's own colours and border width; after the clear it makes only the frame's five calls. |
| Drawings.WrappedFrame | drawing.py:97-109 | Save and restore around the frame calls keep all of those facts and balance the stack. |
| Drawings.PrologueIgnoresComponents | drawing.py:97-109 | The prologue does not depend on the components. |
| Drawings.ComponentsTrace | drawing.py:115-116 | The components' renderings together are balanced, and empty exactly when no component has a drawing. |
| Drawings.ComponentsTraceConcat | drawing.py:115-116 | Components render in insertion order: the trace of a concatenation is the concatenation of the traces. |
| Drawings.Render | drawing.py:111-118 | A whole rendering starts with save and clear and restores every state it saves; it is exactly the `_init_render` prologue followed by the components' traces in order. |
| Drawings.RenderAfterAdd | drawing.py:85-118 | Rendering after `add(s)` is the earlier rendering followed by s's calls between save and restore. |
| Drawings.NewDrawingRendersFrame | drawing.py:59-109 | A new drawing with no options renders exactly: save, clear, the black background, the grey border of width 2, restore. |
| Drawings.EmptyBackgroundNotFilled | drawing.py:72-102 | `background=''` is kept (it is not None) and, being falsy, paints no background. |
| Drawings.BorderNoneStillDrawn | drawing.py:69-74 | As written, `Drawing(border=None)` still strokes the border. |
| Drawings.IntendedBorderNoneOmitted | drawing.py:69-106 | As intended, `border=None` strokes no border and a missing border strokes the default one. |
| Drawings.LastChars | drawing.py:166 | Python's `s[-n:]` for positive n: the last n characters, or the whole of a shorter string. |
| Drawings.PngFileName | drawing.py:163-167 | The saved name always ends in `.png`; a name already ending in `.png` is kept, any other gets `.png` appended. |
| Drawings.PngFileNameIdempotent | drawing.py:166-167 | Normalising twice is normalising once, and the result starts with the given name. |
| Drawings.PinnedDefaultFileName | drawing.py:163-167 | The default name `drawing.png` is kept and `sketch` becomes `sketch.png`. |
| Drawings.PinnedShortFileNames | drawing.py:166-167 | Names shorter than four characters, such as `png` and the empty name, get `.png` appended. |
| Drawings.PinnedUpperCaseFileName | drawing.py:166-167 | The comparison is case-sensitive: `scan.PNG` becomes `scan.PNG.png`. |

## Left out

- The ipycanvas widget and Jupyter plumbing: inheriting from `Canvas`, `_myflush` and the `caching`/`flush` interplay, `show` and its ready callback, `draw`, `display` (matplotlib), `get_image_data`, and the `to_file` call with its swallowed exceptions. These are I/O against an external widget; the model records canvas calls as a trace instead. The `caching` option is kept as a field only.
- `_random_circle`, `random.random()`, `sqrt` and `_normalize`: randomness and floating-point square roots. `CrudeLine` takes six random values (the two unit-disk samples for A and D and the four `random.random()` values for B and C) and the unit direction and length of `p1 - p0` as parameters; the lemmas about the curve assume `ValidDraws` and `DirectionOf` of them.
- Shapes.CrudeLine: stores the corrected anchor, the midpoint of A and D, where drawing.py:499 stores `y = ya + yd/2`; the constructor as written is `Shapes.CrudeLineAsWritten`, and `Shapes.CrudeLineAnchorNotDrawn` shows the two draw the same calls (see Findings).
- CrudeLines.ControlPoints: on a zero-length line the source divides by zero inside numpy and yields NaN coordinates; the model reports a `DegenerateLine` failure instead.
- Shapes.ShapeRender: a shape never added to a drawing has no `drawing` attribute, so `render` on it raises AttributeError; the model renders nothing, as for a shape whose `drawing` is None. Within `Drawing.render` every component has a drawing, so the difference does not show there.
- The identity of shape objects: adding one shape object to two drawings makes both drawings render it on the second; the model copies shapes into drawings by value, each with its owner.
- `Shape.clone`: it calls `copy.deepcopy` without importing `copy`.
- `Point.__repr__`: string formatting only.
- The `if False:` debugging branch of `CrudeLine._render`.
- The default argument values of the shape constructors (other than the default colour and line width): callers pass every argument.
- Python number semantics: integers and floats are both `real`; there is no rounding, overflow, or NaN.
- Colours, fonts and text are opaque strings; only their truthiness matters.
- `fill_arc`/`stroke_arc` angles: always 0 and 2π, so the commands omit them.

## Findings

| source | as written | input that shows it | evidently intended | confidence | as-written member | corrected member |
|---|---|---|---|---|---|---|
| drawing.py:499 | the anchor's y is `ya + yd/2` | A = D = (0, 2): the anchor is at y = 3, off the curve | `(ya + yd)/2`, the midpoint of A and D like x | high (the x coordinate is parenthesised), not executed | CrudeLines.AnchorAsWrittenOffCentre | CrudeLines.Anchor |
| drawing.py:69-74 | `kwargs.get(key, None) == None` replaces an explicit `border=None` by the grey default | `Drawing(border=None)` still strokes the border | `border=None` omits the border, as the example comment says | medium (the comment states the intent), not executed | Drawings.BorderNoneStillDrawn | Drawings.IntendedBorderNoneOmitted |

=== FILE: averages.dfy ===
/** `_average`: the arithmetic mean of a sequence of numbers, which
    Polygon uses for its centroid. */
module Averages {
  import opened Wrappers

  /** Python's `sum`, adding left to right. */
  function Sum(xs: seq<real>): real
    decreases |xs|
  {
    if |xs| == 0 then 0.0 else Sum(xs[..|xs| - 1]) + xs[|xs| - 1]
  }

  /** `sum(values)/len(values)`; an empty sequence divides by zero. */
  function Average(xs: seq<real>): (r: Result<real, Error>)
    ensures r.Failure? <==> |xs| == 0
    ensures r.Failure? ==> r.error == ZeroDivision
    ensures r.Success? ==> r.value * (|xs| as real) == Sum(xs)
  {
    if |xs| == 0 then Failure(ZeroDivision) else Success(Sum(xs) / (|xs| as real))
  }

  /** Every element shifted by `c`. */
  function Shift(xs: seq<real>, c: real): (r: seq<real>)
    ensures |r| == |xs|
    ensures forall i :: 0 <= i < |xs| ==> r[i] == xs[i] + c
  {
    seq(|xs|, i requires 0 <= i < |xs| => xs[i] + c)
  }

  lemma {:induction false} SumBounds(xs: seq<real>, lo: real, hi: real)
    requires forall i :: 0 <= i < |xs| ==> lo <= xs[i] <= hi
    ensures (|xs| as real) * lo <= Sum(xs) <= (|xs| as real) * hi
    decreases |xs|
  {
    if |xs| > 0 {
      var xs' := xs[..|xs| - 1];
      assert forall i :: 0 <= i < |xs'| ==> xs'[i] == xs[i];
      SumBounds(xs', lo, hi);
      assert (|xs| as real) * lo == (|xs'| as real) * lo + lo;
      assert (|xs| as real) * hi == (|xs'| as real) * hi + hi;
    }
  }

  lemma {:induction false} SumShift(xs: seq<real>, c: real)
    ensures Sum(Shift(xs, c)) == Sum(xs) + (|xs| as real) * c
    decreases |xs|
  {
    if |xs| > 0 {
      var xs' := xs[..|xs| - 1];
      assert Shift(xs, c)[..|xs| - 1] == Shift(xs', c);
      SumShift(xs', c);
      assert (|xs| as real) * c == (|xs'| as real) * c + c;
    }
  }

  /** The mean lies between any lower and upper bound of the elements. */
  lemma AverageWithinBounds(xs: seq<real>, lo: real, hi: real)
    requires |xs| > 0
    requires forall i :: 0 <= i < |xs| ==> lo <= xs[i] <= hi
    ensures Average(xs).Success?
    ensures lo <= Average(xs).value <= hi
  {
    SumBounds(xs, lo, hi);
    var n := |xs| as real;
    var m := Average(xs).value;
    assert m * n == Sum(xs);
    assert (m - lo) * n >= 0.0;
    assert (hi - m) * n >= 0.0;
  }

  /** Shifting every element shifts the mean by the same amount. */
  lemma AverageShift(xs: seq<real>, c: real)
    requires |xs| > 0
    ensures Average(Shift(xs, c)) == Success(Average(xs).value + c)
  {
    SumShift(xs, c);
    var n := |xs| as real;
    var s := Sum(xs);
    var a := Average(Shift(xs, c));
    assert a.value * n == s + n * c;
    assert (s / n) * n == s;
    assert a.value == (s + n * c) / n;
    assert Average(xs).value == s / n;
    assert (s + n * c) / n == s / n + (n * c) / n;
    assert (n * c) / n == c;
  }

  /** The module's own checks: `_average((1, 2, 3)) == 2`, `_average([10.0, 14.0]) == 12.0`. */
  lemma PinnedAverages()
    ensures Average([1.0, 2.0, 3.0]) == Success(2.0)
    ensures Average([10.0, 14.0]) == Success(12.0)
  {
    assert [1.0, 2.0, 3.0][..2] == [1.0, 2.0];
    assert [1.0, 2.0][..1] == [1.0];
    assert [1.0][..0] == [];
    assert [10.0, 14.0][..1] == [10.0];
    assert [10.0][..0] == [];
  }
}

=== FILE: canvas.dfy ===
/** The canvas calls a drawing makes, recorded as a trace of commands,
    and the properties of traces the rendering code is proved to keep. */
module Canvas {
  import opened Wrappers

  /** A colour as the library passes it around: a CSS colour string
      ('#rrggbbaa', 'darkblue', ...) or Python's None. */
  type Color = Option<string>

  /** Python truthiness of a colour: None and the empty string are false. */
  predicate Truthy(c: Color) {
    c.Some? && |c.value| > 0
  }

  /** One canvas call. Assignments to the canvas's style properties
      (`fill_style`, `stroke_style`, `line_width`, `font`) are commands too.
      `fill_arc` and `stroke_arc` are always called with the angles 0 and 2*pi,
      so the arc commands carry only the centre and the radius. */
  datatype Command =
    | Save
    | Restore
    | Clear
    | SetFillStyle(style: Color)
    | SetStrokeStyle(style: Color)
    | SetLineWidth(width: real)
    | SetFont(face: string)
    | FillRect(x: real, y: real, w: real, h: real)
    | StrokeRect(x: real, y: real, w: real, h: real)
    | FillArc(x: real, y: real, radius: real)
    | StrokeArc(x: real, y: real, radius: real)
    | BeginPath
    | MoveTo(x: real, y: real)
    | LineTo(x: real, y: real)
    | ClosePath
    | Fill
    | Stroke
    | BezierCurveTo(x1: real, y1: real, x2: real, y2: real, x3: real, y3: real)
    | FillText(text: string, x: real, y: real)

  type Trace = seq<Command>

  /** Commands that paint with the current fill style. */
  predicate IsFillCmd(c: Command) {
    c.FillRect? || c.FillArc? || c.Fill? || c.FillText?
  }

  /** Commands that paint with the current stroke style. */
  predicate IsStrokeCmd(c: Command) {
    c.StrokeRect? || c.StrokeArc? || c.Stroke?
  }

  predicate HasFill(t: Trace) {
    exists i :: 0 <= i < |t| && IsFillCmd(t[i])
  }

  predicate HasStroke(t: Trace) {
    exists i :: 0 <= i < |t| && IsStrokeCmd(t[i])
  }

  /** Every fill of the trace comes before every stroke. */
  predicate FillsBeforeStrokes(t: Trace) {
    forall i, j :: 0 <= i < |t| && 0 <= j < |t| && IsFillCmd(t[i]) && IsStrokeCmd(t[j]) ==> i < j
  }

  /** Every paint command is preceded by an assignment of the style it paints with:
      the trace assumes nothing about the styles the canvas had before it. */
  predicate StylesSetBeforeUse(t: Trace) {
    && (forall i :: 0 <= i < |t| && IsFillCmd(t[i]) ==> exists j :: 0 <= j < i && t[j].SetFillStyle?)
    && (forall i :: 0 <= i < |t| && IsStrokeCmd(t[i]) ==> exists j :: 0 <= j < i && t[j].SetStrokeStyle?)
  }

  /** The trace neither saves nor restores the canvas state. */
  predicate NoStackOps(t: Trace) {
    forall i :: 0 <= i < |t| ==> !t[i].Save? && !t[i].Restore?
  }

  /** The change a command makes to the depth of the canvas's save stack. */
  function Step(c: Command): int {
    match c
    case Save => 1
    case Restore => -1
    case _ => 0
  }

  /** Saves minus restores over the trace. */
  function Depth(t: Trace): int
    decreases |t|
  {
    if |t| == 0 then 0 else Depth(t[..|t| - 1]) + Step(t[|t| - 1])
  }

  /** No prefix of the trace restores more than it saved, and the whole
      trace leaves the save stack as it found it. */
  predicate Balanced(t: Trace) {
    Depth(t) == 0 && forall k :: 0 <= k <= |t| ==> Depth(t[..k]) >= 0
  }

  lemma {:induction false} DepthAppend(a: Trace, b: Trace)
    ensures Depth(a + b) == Depth(a) + Depth(b)
    decreases |b|
  {
    if |b| == 0 {
      assert a + b == a;
    } else {
      var b' := b[..|b| - 1];
      assert (a + b)[..|a + b| - 1] == a + b';
      assert (a + b)[|a + b| - 1] == b[|b| - 1];
      DepthAppend(a, b');
    }
  }

  lemma {:induction false} NoStackOpsDepth(t: Trace)
    requires NoStackOps(t)
    ensures Depth(t) == 0
    decreases |t|
  {
    if |t| > 0 {
      var t' := t[..|t| - 1];
      assert NoStackOps(t') by {
        forall i | 0 <= i < |t'| ensures !t'[i].Save? && !t'[i].Restore? {
          assert t'[i] == t[i];
        }
      }
      NoStackOpsDepth(t');
    }
  }

  /** A trace without saves and restores is balanced. */
  lemma NoStackOpsBalanced(t: Trace)
    requires NoStackOps(t)
    ensures Balanced(t)
  {
    NoStackOpsDepth(t);
    forall k | 0 <= k <= |t| ensures Depth(t[..k]) >= 0 {
      var p := t[..k];
      assert NoStackOps(p) by {
        forall i | 0 <= i < |p| ensures !p[i].Save? && !p[i].Restore? {
          assert p[i] == t[i];
        }
      }
      NoStackOpsDepth(p);
    }
  }

  /** Balanced traces run one after the other stay balanced. */
  lemma BalancedConcat(a: Trace, b: Trace)
    requires Balanced(a) && Balanced(b)
    ensures Balanced(a + b)
  {
    DepthAppend(a, b);
    forall k | 0 <= k <= |a + b| ensures Depth((a + b)[..k]) >= 0 {
      if k <= |a| {
        assert (a + b)[..k] == a[..k];
      } else {
        assert (a + b)[..k] == a + b[..k - |a|];
        DepthAppend(a, b[..k - |a|]);
      }
    }
  }

  /** A balanced trace between a save and a restore is balanced. */
  lemma BalancedWrap(t: Trace)
    requires Balanced(t)
    ensures Balanced([Save] + t + [Restore])
  {
    var w := [Save] + t + [Restore];
    DepthAppend([Save] + t, [Restore]);
    DepthAppend([Save], t);
    assert Depth([Save]) == 1 by { assert [Save][..0] == []; }
    assert Depth([Restore]) == -1 by { assert [Restore][..0] == []; }
    forall k | 0 <= k <= |w| ensures Depth(w[..k]) >= 0 {
      if k == 0 {
        assert w[..k] == [];
      } else if k <= |t| + 1 {
        assert w[..k] == [Save] + t[..k - 1];
        DepthAppend([Save], t[..k - 1]);
      } else {
        assert w[..k] == w;
      }
    }
  }
}

=== FILE: crude_line.dfy ===
/** The control-point arithmetic of `CrudeLine.__init__`: a cubic Bezier
    curve A -> B -> C -> D that imitates a hand-drawn line from p0 to p1.

    The source draws its randomness from `random.random()` and
    `_random_circle()` and its direction from `_normalize` and `sqrt`. Here
    those values are parameters: a `Draws` record holds the six random
    values in the order the constructor consumes them, and a `Direction`
    holds the unit vector along p1 - p0 and the length of p1 - p0. */
module CrudeLines {
  import opened Wrappers
  import opened Points

  /** A plain coordinate pair (the source keeps the control points as
      separate floats, not as Points). */
  datatype Pos = Pos(x: real, y: real)

  function PosOf(p: Point): Pos {
    Pos(p.x, p.y)
  }

  /** The random values, in order of use: the offset of A from p0 (a point
      of the unit disk), `random()` for B's along and across positions, the
      same for C, and the offset of D from p1. */
  datatype Draws = Draws(offsetA: Pos, bAlong: real, bAcross: real,
                         cAlong: real, cAcross: real, offsetD: Pos)

  /** `_random_circle()` returns r*(cos t, sin t) with r = sqrt(random()),
      so its squared length is a `random()` value, in [0, 1). */
  predicate InUnitDisk(o: Pos) {
    o.x * o.x + o.y * o.y < 1.0
  }

  /** The range of `random.random()`. */
  predicate InUnitInterval(r: real) {
    0.0 <= r < 1.0
  }

  predicate ValidDraws(d: Draws) {
    && InUnitDisk(d.offsetA) && InUnitDisk(d.offsetD)
    && InUnitInterval(d.bAlong) && InUnitInterval(d.bAcross)
    && InUnitInterval(d.cAlong) && InUnitInterval(d.cAcross)
  }

  /** The unit vector along a line and its length. */
  datatype Direction = Direction(unit: Pos, length: real)

  /** `dir` is what `_normalize(p1.x - p0.x, p1.y - p0.y)` and the `sqrt`
      of the squared length compute for a line of non-zero length. */
  predicate DirectionOf(dir: Direction, p0: Point, p1: Point) {
    && dir.length > 0.0
    && dir.unit.x * dir.unit.x + dir.unit.y * dir.unit.y == 1.0
    && dir.length * dir.unit.x == p1.x - p0.x
    && dir.length * dir.unit.y == p1.y - p0.y
  }

  /** The four points of the curve. */
  datatype Bezier = Bezier(a: Pos, b: Pos, c: Pos, d: Pos)

  /** `_b_para` / `_c_para`: the fraction of the length at which a control
      point sits, `base + 0.1 * random()`. */
  function AlongFraction(base: real, r: real): real {
    base + 0.1 * r
  }

  /** `_b_perp` / `_c_perp`: the distance of a control point from the line,
      `0.3 * (1 + random()) * crudity`. */
  function AcrossDistance(r: real, crudity: real): real {
    0.3 * (1.0 + r) * crudity
  }

  /** `p0 + para * length * u + perp * (-u.y, u.x)`, coordinate by coordinate. */
  function ControlPoint(p0: Point, dir: Direction, para: real, perp: real): Pos {
    Pos(p0.x + para * dir.length * dir.unit.x + perp * (-dir.unit.y),
        p0.y + para * dir.length * dir.unit.y + perp * dir.unit.x)
  }

  /** A point offset from `centre` by `crudity` times a disk sample. */
  function Jitter(centre: Point, offset: Pos, crudity: real): Pos {
    Pos(centre.x + offset.x * crudity, centre.y + offset.y * crudity)
  }

  /** The control points of `CrudeLine(p0, p1, crudity=crudity)`. A line whose
      endpoints coincide has no direction (the source divides 0 by 0 and
      carries NaN on); here it is an error. */
  function ControlPoints(p0: Point, p1: Point, crudity: real, draws: Draws, dir: Direction)
    : (r: Result<Bezier, Error>)
    ensures r.Failure? <==> p0.x == p1.x && p0.y == p1.y
    ensures r.Failure? ==> r.error == DegenerateLine
  {
    if p0.x == p1.x && p0.y == p1.y then Failure(DegenerateLine)
    else
      Success(Bezier(
        Jitter(p0, draws.offsetA, crudity),
        ControlPoint(p0, dir, AlongFraction(0.45, draws.bAlong), AcrossDistance(draws.bAcross, crudity)),
        ControlPoint(p0, dir, AlongFraction(0.65, draws.cAlong), AcrossDistance(draws.cAcross, crudity)),
        Jitter(p1, draws.offsetD, crudity)))
  }

  /** Squared distance between two positions. */
  function SqDist(p: Pos, q: Pos): real {
    (p.x - q.x) * (p.x - q.x) + (p.y - q.y) * (p.y - q.y)
  }

  /** Signed distance of q from p0 along the unit vector u. */
  function Along(p0: Point, u: Pos, q: Pos): real {
    (q.x - p0.x) * u.x + (q.y - p0.y) * u.y
  }

  /** Signed distance of q from the line through p0 along u, positive on the
      side of the perpendicular (-u.y, u.x). */
  function Across(p0: Point, u: Pos, q: Pos): real {
    (q.x - p0.x) * (-u.y) + (q.y - p0.y) * u.x
  }

  /** A control point sits `para * length` along the line and `perp` across it. */
  lemma ControlPointFrame(p0: Point, dir: Direction, para: real, perp: real)
    requires dir.unit.x * dir.unit.x + dir.unit.y * dir.unit.y == 1.0
    ensures Along(p0, dir.unit, ControlPoint(p0, dir, para, perp)) == para * dir.length
    ensures Across(p0, dir.unit, ControlPoint(p0, dir, para, perp)) == perp
  {
    var ux, uy := dir.unit.x, dir.unit.y;
    var s := para * dir.length;
    var q := ControlPoint(p0, dir, para, perp);
    assert q.x - p0.x == s * ux - perp * uy;
    assert q.y - p0.y == s * uy + perp * ux;
    calc {
      Along(p0, dir.unit, q);
      (s * ux - perp * uy) * ux + (s * uy + perp * ux) * uy;
      s * (ux * ux + uy * uy) + perp * (ux * uy - uy * ux);
      s;
    }
    calc {
      Across(p0, dir.unit, q);
      (s * ux - perp * uy) * (-uy) + (s * uy + perp * ux) * ux;
      perp * (ux * ux + uy * uy) + s * (uy * ux - ux * uy);
      perp;
    }
  }

  /** The end point p1 sits `length` along the line from p0 and on it. */
  lemma EndPointFrame(p0: Point, p1: Point, dir: Direction)
    requires DirectionOf(dir, p0, p1)
    ensures Along(p0, dir.unit, PosOf(p1)) == dir.length
    ensures Across(p0, dir.unit, PosOf(p1)) == 0.0
  {
    var ux, uy, l := dir.unit.x, dir.unit.y, dir.length;
    calc {
      Along(p0, dir.unit, PosOf(p1));
      (l * ux) * ux + (l * uy) * uy;
      l * (ux * ux + uy * uy);
      l;
    }
    calc {
      Across(p0, dir.unit, PosOf(p1));
      (l * ux) * (-uy) + (l * uy) * ux;
      0.0;
    }
  }

  /** A line with a direction has distinct endpoints. */
  lemma DirectionSeparates(dir: Direction, p0: Point, p1: Point)
    requires DirectionOf(dir, p0, p1)
    ensures p0.x != p1.x || p0.y != p1.y
  {
    var ux, uy := dir.unit.x, dir.unit.y;
    if ux != 0.0 {
      assert dir.length * ux != 0.0;
    } else {
      assert uy * uy == 1.0;
      assert uy != 0.0;
      assert dir.length * uy != 0.0;
    }
  }

  lemma SquareSign(c: real)
    ensures c * c >= 0.0
    ensures c != 0.0 ==> c * c > 0.0
  {
    if c < 0.0 {
      assert c * c == (-c) * (-c);
    }
  }

  lemma ProductSign(a: real, b: real)
    requires a >= 0.0 && b >= 0.0
    ensures a * b >= 0.0
    ensures a > 0.0 && b > 0.0 ==> a * b > 0.0
  {
  }

  /** A jittered point stays within `|crudity|` of its centre. */
  lemma JitterWithin(centre: Point, offset: Pos, crudity: real)
    requires InUnitDisk(offset)
    ensures SqDist(Jitter(centre, offset, crudity), PosOf(centre)) <= crudity * crudity
    ensures crudity != 0.0 ==> SqDist(Jitter(centre, offset, crudity), PosOf(centre)) < crudity * crudity
  {
    var j := Jitter(centre, offset, crudity);
    var k := offset.x * offset.x + offset.y * offset.y;
    assert j.x - centre.x == offset.x * crudity;
    assert j.y - centre.y == offset.y * crudity;
    SquareSign(crudity);
    ProductSign(crudity * crudity, 1.0 - k);
    calc {
      SqDist(j, PosOf(centre));
      (offset.x * crudity) * (offset.x * crudity) + (offset.y * crudity) * (offset.y * crudity);
      (crudity * crudity) * k;
      crudity * crudity - (crudity * crudity) * (1.0 - k);
    <=
      crudity * crudity;
    }
    if crudity != 0.0 {
      calc {
        SqDist(j, PosOf(centre));
        crudity * crudity - (crudity * crudity) * (1.0 - k);
      <
        crudity * crudity;
      }
    }
  }

  /** A and D lie within `crudity` of p0 and p1 (strictly inside the circle
      when the crudity is not zero). */
  lemma EndsNearEndpoints(p0: Point, p1: Point, crudity: real, draws: Draws, dir: Direction)
    requires ValidDraws(draws)
    requires p0.x != p1.x || p0.y != p1.y
    ensures ControlPoints(p0, p1, crudity, draws, dir).Success?
    ensures var bz := ControlPoints(p0, p1, crudity, draws, dir).value;
      && SqDist(bz.a, PosOf(p0)) <= crudity * crudity
      && SqDist(bz.d, PosOf(p1)) <= crudity * crudity
      && (crudity != 0.0 ==> SqDist(bz.a, PosOf(p0)) < crudity * crudity)
      && (crudity != 0.0 ==> SqDist(bz.d, PosOf(p1)) < crudity * crudity)
  {
    JitterWithin(p0, draws.offsetA, crudity);
    JitterWithin(p1, draws.offsetD, crudity);
  }

  /** `base * l <= (base + 0.1 * r) * l < (base + 0.1) * l` for r in [0, 1) and l > 0. */
  lemma AlongRange(base: real, r: real, l: real)
    requires InUnitInterval(r) && l > 0.0
    ensures base * l <= AlongFraction(base, r) * l < (base + 0.1) * l
  {
    assert AlongFraction(base, r) * l == base * l + 0.1 * (r * l);
    assert 0.0 <= r * l < l;
  }

  /** `0.3 * c <= 0.3 * (1 + r) * c <= 0.6 * c`, strictly below when c > 0. */
  lemma AcrossRange(r: real, c: real)
    requires InUnitInterval(r) && c >= 0.0
    ensures 0.3 * c <= AcrossDistance(r, c) <= 0.6 * c
    ensures c > 0.0 ==> AcrossDistance(r, c) < 0.6 * c
  {
    assert AcrossDistance(r, c) == 0.3 * c + 0.3 * (r * c);
    assert 0.0 <= r * c <= c;
    if c > 0.0 {
      assert r * c < c;
    }
  }

  /** B sits 0.45 to 0.55 of the way along the line and C 0.65 to 0.75, both
      measured from p0; both sit 0.3 to 0.6 crudity to the positive side of
      the line ("above" it), never below. */
  lemma ControlPointsPlacement(p0: Point, p1: Point, crudity: real, draws: Draws, dir: Direction)
    requires ValidDraws(draws) && DirectionOf(dir, p0, p1) && crudity >= 0.0
    ensures ControlPoints(p0, p1, crudity, draws, dir).Success?
    ensures var bz := ControlPoints(p0, p1, crudity, draws, dir).value;
      var u, l := dir.unit, dir.length;
      && 0.45 * l <= Along(p0, u, bz.b) < 0.55 * l
      && 0.65 * l <= Along(p0, u, bz.c) < 0.75 * l
      && 0.3 * crudity <= Across(p0, u, bz.b) <= 0.6 * crudity
      && 0.3 * crudity <= Across(p0, u, bz.c) <= 0.6 * crudity
      && (crudity > 0.0 ==> Across(p0, u, bz.b) < 0.6 * crudity && Across(p0, u, bz.c) < 0.6 * crudity)
  {
    DirectionSeparates(dir, p0, p1);
    PlacedControlPoint(p0, dir, 0.45, draws.bAlong, draws.bAcross, crudity);
    PlacedControlPoint(p0, dir, 0.65, draws.cAlong, draws.cAcross, crudity);
  }

  /** One control point: `base` to `base + 0.1` of the length along, 0.3 to
      0.6 crudity across. */
  lemma PlacedControlPoint(p0: Point, dir: Direction, base: real, rAlong: real, rAcross: real, crudity: real)
    requires dir.unit.x * dir.unit.x + dir.unit.y * dir.unit.y == 1.0 && dir.length > 0.0
    requires InUnitInterval(rAlong) && InUnitInterval(rAcross) && crudity >= 0.0
    ensures var q := ControlPoint(p0, dir, AlongFraction(base, rAlong), AcrossDistance(rAcross, crudity));
      && base * dir.length <= Along(p0, dir.unit, q) < (base + 0.1) * dir.length
      && 0.3 * crudity <= Across(p0, dir.unit, q) <= 0.6 * crudity
      && (crudity > 0.0 ==> Across(p0, dir.unit, q) < 0.6 * crudity)
  {
    var para := AlongFraction(base, rAlong);
    var q := ControlPoint(p0, dir, para, AcrossDistance(rAcross, crudity));
    ControlPointFrame(p0, dir, para, AcrossDistance(rAcross, crudity));
    AlongRange(base, rAlong, dir.length);
    calc {
      base * dir.length;
    <=
      para * dir.length;
    ==
      Along(p0, dir.unit, q);
    }
    calc {
      Along(p0, dir.unit, q);
      para * dir.length;
    <
      (base + 0.1) * dir.length;
    }
    AcrossRange(rAcross, crudity);
  }

  /** With crudity 0 the curve is a straight line: A is p0, D is p1, and B
      and C lie on the segment between them, B before C. */
  lemma ZeroCrudityIsStraight(p0: Point, p1: Point, draws: Draws, dir: Direction)
    requires ValidDraws(draws) && DirectionOf(dir, p0, p1)
    ensures ControlPoints(p0, p1, 0.0, draws, dir).Success?
    ensures var bz := ControlPoints(p0, p1, 0.0, draws, dir).value;
      var u, l := dir.unit, dir.length;
      && bz.a == PosOf(p0) && bz.d == PosOf(p1)
      && Across(p0, u, bz.b) == 0.0 && Across(p0, u, bz.c) == 0.0
      && 0.0 < Along(p0, u, bz.b) < Along(p0, u, bz.c) < l
  {
    ControlPointsPlacement(p0, p1, 0.0, draws, dir);
  }

  /** The anchor `CrudeLine` passes to `Shape.__init__`, as written:
      `x=(xa+xd)/2, y=(ya+yd/2)` -- the y coordinate lacks parentheses. */
  function AnchorAsWritten(bz: Bezier): (r: Pos)
    ensures r.x == Anchor(bz).x
    ensures r.y == Anchor(bz).y + bz.a.y / 2.0
  {
    Pos((bz.a.x + bz.d.x) / 2.0, bz.a.y + bz.d.y / 2.0)
  }

  /** The as-written anchor agrees with the midpoint of A and D exactly when
      A lies on the x axis; A = D = (0, 2) puts it at y = 3, off the curve. */
  lemma AnchorAsWrittenOffCentre(bz: Bezier)
    ensures AnchorAsWritten(bz).y == Anchor(bz).y <==> bz.a.y == 0.0
    ensures AnchorAsWritten(Bezier(Pos(0.0, 2.0), Pos(0.0, 2.0), Pos(0.0, 2.0), Pos(0.0, 2.0))) == Pos(0.0, 3.0)
  {
  }

  /** The anchor as evidently intended: the midpoint of A and D. */
  function Anchor(bz: Bezier): (r: Pos)
    ensures r.x - bz.a.x == bz.d.x - r.x && r.y - bz.a.y == bz.d.y - r.y
    ensures bz.a == bz.d ==> r == bz.a
  {
    Pos((bz.a.x + bz.d.x) / 2.0, (bz.a.y + bz.d.y) / 2.0)
  }
}

=== FILE: drawing.dfy ===
/** `Drawing`: an ordered collection of shapes with a background and a
    border, rendered as one trace of canvas calls; and the file name rule
    of `write_file`. */
module Drawings {
  import opened Wrappers
  import opened Canvas
  import opened Shapes

  /** A keyword argument of `Drawing(...)`: left out, or passed (possibly as None). */
  datatype Kwarg<T> = Absent | Given(value: Option<T>)

  /** The keyword arguments `Drawing.__init__` reads. */
  datatype Options = Options(
    background: Kwarg<string>,
    border: Kwarg<string>,
    borderWidth: Kwarg<real>,
    cacheDefault: Kwarg<bool>,
    syncImageData: Kwarg<bool>,
    caching: Kwarg<bool>)

  const NoOptions: Options := Options(Absent, Absent, Absent, Absent, Absent, Absent)

  /** `Drawing.defaults` and the default size. */
  const DefaultBackground: string := "#000000ff"
  const DefaultBorder: string := "#888888ff"
  const DefaultBorderWidth: real := 2.0
  const DefaultCacheDefault: bool := true
  const DefaultSyncImageData: bool := true
  /** `Drawing.__init__`'s default size. */
  const DefaultWidth: real := 500.0
  const DefaultHeight: real := 500.0

  /** A drawing. `id` stands for the object's identity, which `add` records
      in each shape it is given. */
  datatype Drawing = Drawing(
    id: DrawingRef,
    width: real,
    height: real,
    background: Color,
    border: Color,
    borderWidth: real,
    cacheDefault: bool,
    syncImageData: bool,
    caching: Option<bool>,
    components: seq<Shape>)

  /** `if kwargs.get(key, None) == None: kwargs[key] = Drawing.defaults[key]`:
      a missing or None argument takes the default, any other value is kept,
      however falsy. */
  function Merge<T>(k: Kwarg<T>, default: T): (r: T)
    ensures (k.Absent? || k == Given(None)) ==> r == default
    ensures k.Given? && k.value.Some? ==> r == k.value.value
  {
    match k
    case Given(Some(v)) => v
    case _ => default
  }

  /** `Drawing(width, height, **kwargs)`. A colour passed as None is replaced
      by its default, like every other None; `caching` falls back to the
      class default `cache_default` (True) when it is missing, whatever
      `cache_default` was passed, and keeps an explicit None. */
  function NewDrawing(id: DrawingRef, width: real, height: real, opts: Options): (r: Drawing)
    ensures r.id == id && r.width == width && r.height == height && r.components == []
    ensures r.background == Some(Merge(opts.background, DefaultBackground))
    ensures r.border == Some(Merge(opts.border, DefaultBorder))
    ensures r.borderWidth == Merge(opts.borderWidth, DefaultBorderWidth)
    ensures r.cacheDefault == Merge(opts.cacheDefault, DefaultCacheDefault)
    ensures r.syncImageData == Merge(opts.syncImageData, DefaultSyncImageData)
    ensures opts.caching.Absent? ==> r.caching == Some(DefaultCacheDefault)
    ensures opts.caching.Given? ==> r.caching == opts.caching.value
  {
    Drawing(id, width, height,
            Some(Merge(opts.background, DefaultBackground)),
            Some(Merge(opts.border, DefaultBorder)),
            Merge(opts.borderWidth, DefaultBorderWidth),
            Merge(opts.cacheDefault, DefaultCacheDefault),
            Merge(opts.syncImageData, DefaultSyncImageData),
            match opts.caching case Absent => Some(DefaultCacheDefault) case Given(v) => v,
            [])
  }

  /** `Drawing(**kwargs)` with the size left out: 500 by 500 pixels. */
  function NewDefaultSizeDrawing(id: DrawingRef, opts: Options): (r: Drawing)
    ensures r.width == 500.0 && r.height == 500.0
    ensures r == NewDrawing(id, r.width, r.height, opts)
  {
    NewDrawing(id, DefaultWidth, DefaultHeight, opts)
  }

  /** A colour argument as the `Drawing(border=None)  # omit border` example
      intends it: missing takes the default, None stays None. */
  function MergeColor(k: Kwarg<string>, default: string): (r: Color)
    ensures k.Absent? ==> r == Some(default)
    ensures k.Given? ==> r == k.value
  {
    match k
    case Absent => Some(default)
    case Given(v) => v
  }

  /** `Drawing(...)` with None colours kept, so that `border=None` omits the
      border and `background=None` the background. */
  function NewDrawingIntended(id: DrawingRef, width: real, height: real, opts: Options): (r: Drawing)
    ensures r == NewDrawing(id, width, height, opts).(background := r.background, border := r.border)
    ensures r.background == MergeColor(opts.background, DefaultBackground)
    ensures r.border == MergeColor(opts.border, DefaultBorder)
    ensures opts.border == Given(None) ==> !Truthy(r.border)
    ensures opts.background == Given(None) ==> !Truthy(r.background)
    ensures opts.border.Absent? ==> r.border == Some(DefaultBorder)
  {
    NewDrawing(id, width, height, opts).(background := MergeColor(opts.background, DefaultBackground),
                                        border := MergeColor(opts.border, DefaultBorder))
  }

  /** Every component names this drawing as its drawing. */
  predicate Owned(d: Drawing) {
    forall i :: 0 <= i < |d.components| ==> d.components[i].owner == Some(d.id)
  }

  /** `Drawing.add`: the shape, now belonging to this drawing, goes at the end. */
  function Add(d: Drawing, s: Shape): (r: Drawing)
    ensures |r.components| == |d.components| + 1
    ensures r.components[..|d.components|] == d.components
    ensures r.components[|d.components|] == s.(owner := Some(d.id))
    ensures r.(components := d.components) == d
  {
    d.(components := d.components + [s.(owner := Some(d.id))])
  }

  /** A new drawing owns its (no) components, and `add` keeps it so. */
  lemma AddKeepsOwned(d: Drawing, s: Shape)
    requires Owned(d)
    ensures Owned(Add(d, s))
  {
    var r := Add(d, s);
    forall i | 0 <= i < |r.components| ensures r.components[i].owner == Some(r.id) {
      if i < |d.components| {
        assert r.components[i] == r.components[..|d.components|][i];
      }
    }
  }

  lemma NewDrawingOwned(id: DrawingRef, width: real, height: real, opts: Options)
    ensures Owned(NewDrawing(id, width, height, opts))
    ensures Owned(NewDrawingIntended(id, width, height, opts))
  {
  }

  /** The calls `_init_render` makes between its save and restore: clear,
      the background fill if the background is truthy, and the border (line
      width, stroke style, stroke_rect) if the border is truthy. */
  function FrameCalls(background: Color, border: Color, borderWidth: real, width: real, height: real): Trace {
    [Clear]
      + FillIf(background, FillRect(0.0, 0.0, width, height))
      + (if Truthy(border)
         then [SetLineWidth(borderWidth), SetStrokeStyle(border), StrokeRect(0.0, 0.0, width, height)]
         else [])
  }

  /** The calls the frame may make after `clear`: the background's colour
      and fill, and the border's width, colour and stroke. */
  function FrameCallSet(background: Color, border: Color, borderWidth: real, width: real, height: real): seq<Command> {
    [SetFillStyle(background), FillRect(0.0, 0.0, width, height),
     SetLineWidth(borderWidth), SetStrokeStyle(border), StrokeRect(0.0, 0.0, width, height)]
  }

  /** The frame paints the background before the border, each after its
      own colour is set. */
  lemma FrameOrder(background: Color, border: Color, borderWidth: real, width: real, height: real)
    ensures var t := FrameCalls(background, border, borderWidth, width, height);
      NoStackOps(t) && StylesSetBeforeUse(t) && FillsBeforeStrokes(t)
  {
    var t := FrameCalls(background, border, borderWidth, width, height);
    var fill := [SetFillStyle(background), FillRect(0.0, 0.0, width, height)];
    var stroke := [SetLineWidth(borderWidth), SetStrokeStyle(border), StrokeRect(0.0, 0.0, width, height)];
    if Truthy(background) && Truthy(border) {
      assert t == [Clear] + fill + stroke;
      assert IsFillCmd(t[2]) && IsStrokeCmd(t[5]);
      StyledAt(t, 1, 4);
    } else if Truthy(background) {
      assert t == [Clear] + fill;
      StyledAt(t, 1, -1);
    } else if Truthy(border) {
      assert t == [Clear] + stroke;
      StyledAt(t, -1, 2);
    } else {
      assert t == [Clear];
      StyledAt(t, -1, -1);
    }
  }

  /** The frame fills the whole canvas exactly when the background is
      truthy and strokes its edge exactly when the border is, and sets no
      colour or line width other than the drawing's own. */
  lemma FrameContents(background: Color, border: Color, borderWidth: real, width: real, height: real)
    ensures var t := FrameCalls(background, border, borderWidth, width, height);
      && (FillRect(0.0, 0.0, width, height) in t <==> Truthy(background))
      && (StrokeRect(0.0, 0.0, width, height) in t <==> Truthy(border))
      && (Truthy(background) ==> SetFillStyle(background) in t)
      && (Truthy(border) ==> SetStrokeStyle(border) in t && SetLineWidth(borderWidth) in t)
      && (forall c :: c in t && c.SetFillStyle? ==> c.style == background)
      && (forall c :: c in t && c.SetStrokeStyle? ==> c.style == border)
      && (forall c :: c in t && c.SetLineWidth? ==> c.width == borderWidth)
      && |t| >= 1 && t[0] == Clear
      && (forall i :: 1 <= i < |t| ==> t[i] in FrameCallSet(background, border, borderWidth, width, height))
  {
  }

  /** Calls that paint and style as the frame does still do so between a
      save and a restore. */
  lemma WrappedFrame(t: Trace, background: Color, border: Color, borderWidth: real, width: real, height: real)
    requires |t| >= 1 && t[0] == Clear
    requires NoStackOps(t) && StylesSetBeforeUse(t) && FillsBeforeStrokes(t)
    requires FillRect(0.0, 0.0, width, height) in t <==> Truthy(background)
    requires StrokeRect(0.0, 0.0, width, height) in t <==> Truthy(border)
    requires Truthy(background) ==> SetFillStyle(background) in t
    requires Truthy(border) ==> SetStrokeStyle(border) in t && SetLineWidth(borderWidth) in t
    requires forall c :: c in t && c.SetFillStyle? ==> c.style == background
    requires forall c :: c in t && c.SetStrokeStyle? ==> c.style == border
    requires forall c :: c in t && c.SetLineWidth? ==> c.width == borderWidth
    requires forall i :: 1 <= i < |t| ==> t[i] in FrameCallSet(background, border, borderWidth, width, height)
    ensures var r := [Save] + t + [Restore];
      && |r| >= 3 && r[0] == Save && r[1] == Clear && r[|r| - 1] == Restore
      && (FillRect(0.0, 0.0, width, height) in r <==> Truthy(background))
      && (StrokeRect(0.0, 0.0, width, height) in r <==> Truthy(border))
      && StylesSetBeforeUse(r) && FillsBeforeStrokes(r)
      && (Truthy(background) ==> SetFillStyle(background) in r)
      && (Truthy(border) ==> SetStrokeStyle(border) in r && SetLineWidth(borderWidth) in r)
      && (forall c :: c in r && c.SetFillStyle? ==> c.style == background)
      && (forall c :: c in r && c.SetStrokeStyle? ==> c.style == border)
      && (forall c :: c in r && c.SetLineWidth? ==> c.width == borderWidth)
      && Balanced(r)
      && (forall i :: 2 <= i < |r| - 1 ==> r[i] in FrameCallSet(background, border, borderWidth, width, height))
  {
    WrapFacts(t);
    WrapMembers(t);
    var r := [Save] + t + [Restore];
    forall i | 2 <= i < |r| - 1
      ensures r[i] in FrameCallSet(background, border, borderWidth, width, height)
    {
      assert r[i] == t[i - 1];
    }
  }

  /** `_init_render`: the frame between a save and a restore. The background
      is filled exactly when it is truthy and the border stroked exactly when
      it is, the fill first, each in the drawing's own colours. */
  function Prologue(d: Drawing): (r: Trace)
    ensures |r| >= 3 && r[0] == Save && r[1] == Clear && r[|r| - 1] == Restore
    ensures FillRect(0.0, 0.0, d.width, d.height) in r <==> Truthy(d.background)
    ensures StrokeRect(0.0, 0.0, d.width, d.height) in r <==> Truthy(d.border)
    ensures StylesSetBeforeUse(r) && FillsBeforeStrokes(r)
    ensures Truthy(d.background) ==> SetFillStyle(d.background) in r
    ensures Truthy(d.border) ==> SetStrokeStyle(d.border) in r && SetLineWidth(d.borderWidth) in r
    ensures forall c :: c in r && c.SetFillStyle? ==> c.style == d.background
    ensures forall c :: c in r && c.SetStrokeStyle? ==> c.style == d.border
    ensures forall c :: c in r && c.SetLineWidth? ==> c.width == d.borderWidth
    ensures Balanced(r)
    // nothing but the frame's own calls between the clear and the restore
    ensures forall i :: 2 <= i < |r| - 1 ==>
      r[i] in FrameCallSet(d.background, d.border, d.borderWidth, d.width, d.height)
  {
    var inner := FrameCalls(d.background, d.border, d.borderWidth, d.width, d.height);
    FrameOrder(d.background, d.border, d.borderWidth, d.width, d.height);
    FrameContents(d.background, d.border, d.borderWidth, d.width, d.height);
    WrappedFrame(inner, d.background, d.border, d.borderWidth, d.width, d.height);
    [Save] + inner + [Restore]
  }

  /** Wrapping calls in save/restore keeps their styles and their order. */
  lemma WrapFacts(t: Trace)
    requires NoStackOps(t) && StylesSetBeforeUse(t) && FillsBeforeStrokes(t)
    ensures var w := [Save] + t + [Restore];
      StylesSetBeforeUse(w) && FillsBeforeStrokes(w) && Balanced(w)
  {
    WrapKeepsStyles(t);
    WrapKeepsOrder(t);
    NoStackOpsBalanced(t);
    BalancedWrap(t);
  }

  /** The wrapped calls are the calls plus the save and the restore. */
  lemma WrapMembers(t: Trace)
    ensures forall c :: c in [Save] + t + [Restore] <==> c == Save || c == Restore || c in t
  {
  }

  lemma WrapKeepsStyles(t: Trace)
    requires StylesSetBeforeUse(t)
    ensures StylesSetBeforeUse([Save] + t + [Restore])
  {
    WrapKeepsFillStyle(t);
    WrapKeepsStrokeStyle(t);
  }

  lemma WrapKeepsFillStyle(t: Trace)
    requires forall i :: 0 <= i < |t| && IsFillCmd(t[i]) ==> exists j :: 0 <= j < i && t[j].SetFillStyle?
    ensures var w := [Save] + t + [Restore];
      forall i :: 0 <= i < |w| && IsFillCmd(w[i]) ==> exists j :: 0 <= j < i && w[j].SetFillStyle?
  {
    var w := [Save] + t + [Restore];
    forall i | 0 <= i < |w| && IsFillCmd(w[i]) ensures exists j :: 0 <= j < i && w[j].SetFillStyle? {
      assert w[i] == t[i - 1];
      var j :| 0 <= j < i - 1 && t[j].SetFillStyle?;
      assert w[j + 1] == t[j];
    }
  }

  lemma WrapKeepsStrokeStyle(t: Trace)
    requires forall i :: 0 <= i < |t| && IsStrokeCmd(t[i]) ==> exists j :: 0 <= j < i && t[j].SetStrokeStyle?
    ensures var w := [Save] + t + [Restore];
      forall i :: 0 <= i < |w| && IsStrokeCmd(w[i]) ==> exists j :: 0 <= j < i && w[j].SetStrokeStyle?
  {
    var w := [Save] + t + [Restore];
    forall i | 0 <= i < |w| && IsStrokeCmd(w[i]) ensures exists j :: 0 <= j < i && w[j].SetStrokeStyle? {
      assert w[i] == t[i - 1];
      var j :| 0 <= j < i - 1 && t[j].SetStrokeStyle?;
      assert w[j + 1] == t[j];
    }
  }

  lemma WrapKeepsOrder(t: Trace)
    requires FillsBeforeStrokes(t)
    ensures FillsBeforeStrokes([Save] + t + [Restore])
  {
    var w := [Save] + t + [Restore];
    forall i, j | 0 <= i < |w| && 0 <= j < |w| && IsFillCmd(w[i]) && IsStrokeCmd(w[j]) ensures i < j {
      assert w[i] == t[i - 1] && w[j] == t[j - 1];
    }
  }

  /** `component.render()` for each component, in insertion order. */
  function ComponentsTrace(cs: seq<Shape>): (r: Trace)
    ensures Balanced(r)
    ensures r == [] <==> forall i :: 0 <= i < |cs| ==> cs[i].owner.None?
  {
    if |cs| == 0 then
      NoStackOpsBalanced([]);
      []
    else
      var rest := ComponentsTrace(cs[1..]);
      BalancedConcat(ShapeRender(cs[0]), rest);
      assert forall i :: 1 <= i < |cs| ==> cs[i] == cs[1..][i - 1];
      ShapeRender(cs[0]) + rest
  }

  /** `Drawing.render`: the prologue, then every component. The whole pass
      restores every canvas state it saves. */
  function Render(d: Drawing): (r: Trace)
    ensures Balanced(r)
    ensures |r| >= 3 && r[0] == Save && r[1] == Clear
    ensures |Prologue(d)| <= |r| && r[..|Prologue(d)|] == Prologue(d)
    ensures r[|Prologue(d)|..] == ComponentsTrace(d.components)
  {
    BalancedConcat(Prologue(d), ComponentsTrace(d.components));
    Prologue(d) + ComponentsTrace(d.components)
  }

  /** Components are rendered in insertion order: the trace of a
      concatenation is the concatenation of the traces. */
  lemma {:induction false} ComponentsTraceConcat(a: seq<Shape>, b: seq<Shape>)
    ensures ComponentsTrace(a + b) == ComponentsTrace(a) + ComponentsTrace(b)
    decreases |a|
  {
    if |a| == 0 {
      assert a + b == b;
    } else {
      assert (a + b)[0] == a[0];
      assert (a + b)[1..] == a[1..] + b;
      ComponentsTraceConcat(a[1..], b);
    }
  }

  /** The prologue depends on the frame only, not on the components. */
  lemma PrologueIgnoresComponents(d: Drawing, cs: seq<Shape>)
    ensures Prologue(d.(components := cs)) == Prologue(d)
  {
    var d' := d.(components := cs);
    assert d'.width == d.width && d'.height == d.height && d'.background == d.background;
    assert d'.border == d.border && d'.borderWidth == d.borderWidth;
  }

  /** A drawing's one component renders as that shape alone. */
  lemma ComponentsTraceSingle(s: Shape)
    ensures ComponentsTrace([s]) == ShapeRender(s)
  {
    assert [s][1..] == [];
    assert ComponentsTrace([s]) == ShapeRender(s) + ComponentsTrace([]);
  }

  /** Rendering after `add` repeats the earlier rendering and then draws the
      new shape between a save and a restore. */
  lemma RenderAfterAdd(d: Drawing, s: Shape)
    ensures Render(Add(d, s)) == Render(d) + [Save] + ShapeTrace(s) + [Restore]
  {
    var s' := s.(owner := Some(d.id));
    var cs := d.components + [s'];
    assert Add(d, s) == d.(components := cs);
    PrologueIgnoresComponents(d, cs);
    ComponentsTraceConcat(d.components, [s']);
    ComponentsTraceSingle(s');
    ShapeTraceIgnoresOwner(s, Some(d.id));
    var p, c, t := Prologue(d), ComponentsTrace(d.components), ShapeTrace(s);
    assert ShapeRender(s') == [Save] + t + [Restore];
    assert Render(Add(d, s)) == p + (c + ([Save] + t + [Restore]));
    WrappedAppend(p, c, t);
  }

  lemma WrappedAppend(p: Trace, c: Trace, t: Trace)
    ensures p + (c + ([Save] + t + [Restore])) == p + c + [Save] + t + [Restore]
  {
  }

  /** The trace of a drawing with no components is its prologue, and a new
      drawing draws the black background and the grey border of width 2. */
  lemma NewDrawingRendersFrame(id: DrawingRef, width: real, height: real)
    ensures var d := NewDrawing(id, width, height, NoOptions);
      && Render(d) == Prologue(d)
      && Prologue(d) == [Save, Clear,
                         SetFillStyle(Some(DefaultBackground)), FillRect(0.0, 0.0, width, height),
                         SetLineWidth(DefaultBorderWidth), SetStrokeStyle(Some(DefaultBorder)),
                         StrokeRect(0.0, 0.0, width, height),
                         Restore]
  {
    var d := NewDrawing(id, width, height, NoOptions);
    assert Truthy(d.background) && Truthy(d.border);
    var frame := FrameCalls(d.background, d.border, d.borderWidth, width, height);
    assert frame == [Clear, SetFillStyle(Some(DefaultBackground)), FillRect(0.0, 0.0, width, height)]
                  + [SetLineWidth(DefaultBorderWidth), SetStrokeStyle(Some(DefaultBorder)),
                     StrokeRect(0.0, 0.0, width, height)];
    assert Prologue(d) == [Save] + frame + [Restore];
    FrameLiteral(Clear, SetFillStyle(Some(DefaultBackground)), FillRect(0.0, 0.0, width, height),
                 SetLineWidth(DefaultBorderWidth), SetStrokeStyle(Some(DefaultBorder)),
                 StrokeRect(0.0, 0.0, width, height));
    assert ComponentsTrace(d.components) == [];
    assert Render(d) == Prologue(d) + [];
  }

  lemma FrameLiteral(a: Command, b: Command, c: Command, d: Command, e: Command, f: Command)
    ensures [Save] + ([a, b, c] + [d, e, f]) + [Restore] == [Save, a, b, c, d, e, f, Restore]
  {
  }

  /** `Drawing(background='')`: the empty string is not None, so it is kept,
      and being falsy it suppresses the background. */
  lemma EmptyBackgroundNotFilled(id: DrawingRef, width: real, height: real)
    ensures FillRect(0.0, 0.0, width, height) !in Prologue(NewDrawing(id, width, height, NoOptions.(background := Given(Some("")))))
  {
  }

  /** As written, `Drawing(border=None)` still draws the grey border. */
  lemma BorderNoneStillDrawn(id: DrawingRef, width: real, height: real, opts: Options)
    requires opts.border == Given(None)
    ensures StrokeRect(0.0, 0.0, width, height) in Prologue(NewDrawing(id, width, height, opts))
  {
  }

  /** As intended, `Drawing(border=None)` draws no border, and leaving the
      border out still draws the default one. */
  lemma IntendedBorderNoneOmitted(id: DrawingRef, width: real, height: real, opts: Options)
    ensures opts.border == Given(None) ==>
      StrokeRect(0.0, 0.0, width, height) !in Prologue(NewDrawingIntended(id, width, height, opts))
    ensures opts.border.Absent? ==>
      StrokeRect(0.0, 0.0, width, height) in Prologue(NewDrawingIntended(id, width, height, opts))
  {
  }

  // ---------------------------------------------------------------- write_file

  const DefaultFileName: string := "drawing.png"

  /** Python's `s[-n:]` for n > 0: the last n characters, or all of a shorter string. */
  function LastChars(s: string, n: nat): (r: string)
    requires n > 0
    ensures |r| == if |s| >= n then n else |s|
    ensures r == s[|s| - |r|..]
  {
    if |s| >= n then s[|s| - n..] else s
  }

  predicate EndsWithPng(s: string) {
    |s| >= 4 && s[|s| - 4..] == ".png"
  }

  /** The name `write_file` saves under: `.png` is appended unless the name
      already ends with it (case-sensitively). */
  function PngFileName(filename: string): (r: string)
    ensures EndsWithPng(r)
    ensures EndsWithPng(filename) ==> r == filename
    ensures !EndsWithPng(filename) ==> r == filename + ".png"
  {
    if LastChars(filename, 4) != ".png" then filename + ".png" else filename
  }

  /** Normalising a name twice is normalising it once; the result always
      starts with the name it was given. */
  lemma PngFileNameIdempotent(filename: string)
    ensures PngFileName(PngFileName(filename)) == PngFileName(filename)
    ensures filename <= PngFileName(filename)
  {
  }

  /** `write_file()` saves to `drawing.png`; `write_file('sketch')` to `sketch.png`. */
  lemma PinnedDefaultFileName()
    ensures PngFileName(DefaultFileName) == "drawing.png"
    ensures PngFileName("sketch") == "sketch.png"
  {
    assert DefaultFileName[7..] == ".png";
    assert "sketch"[2..] != ".png" by { assert "sketch"[2..][0] == 'e'; }
  }

  /** Short names and upper-case extensions get `.png` appended. */
  lemma PinnedShortFileNames()
    ensures PngFileName("png") == "png.png"
    ensures PngFileName("") == ".png"
  {
    assert LastChars("png", 4) == "png";
    assert LastChars("", 4) == "";
  }

  lemma PinnedUpperCaseFileName()
    ensures PngFileName("scan.PNG") == "scan.PNG.png"
  {
    assert "scan.PNG"[4..] != ".png" by { assert "scan.PNG"[4..][1] == 'P'; }
  }
}

=== FILE: points.dfy ===
/** `Point`: a 2D vector carrying a colour, with the vector operators of
    drawing.py. Coordinates are reals; the colour is opaque and only ever
    copied from the left (or only) operand. */
module Points {
  import opened Wrappers
  import opened Canvas

  datatype Point = Point(x: real, y: real, color: Color)

  /** `default_color`: whiteish, mostly opaque. */
  const DefaultColor: Color := Some("#cccccccc")

  /** `default_line_width`, in pixels. */
  const DefaultLineWidth: real := 2.0

  /** `Point(x, y)` with the default colour. */
  function At(x: real, y: real): Point {
    Point(x, y, DefaultColor)
  }

  /** `__eq__`: compares the coordinates only, never the colour. */
  predicate Eq(a: Point, b: Point) {
    a.x == b.x && a.y == b.y
  }

  /** `__add__` */
  function Add(a: Point, b: Point): (r: Point)
    ensures r.color == a.color
    ensures Eq(Sub(r, b), a)
  {
    Point(a.x + b.x, a.y + b.y, a.color)
  }

  /** `__sub__` */
  function Sub(a: Point, b: Point): (r: Point)
    ensures r.color == a.color
    ensures r.x + b.x == a.x && r.y + b.y == a.y
  {
    Point(a.x - b.x, a.y - b.y, a.color)
  }

  /** `__neg__` */
  function Neg(a: Point): (r: Point)
    ensures r.color == a.color
    ensures Eq(Add(a, r), Point(0.0, 0.0, None))
  {
    Point(-a.x, -a.y, a.color)
  }

  /** The dot product, `Point * Point`. */
  function Dot(a: Point, b: Point): real {
    a.x * b.x + a.y * b.y
  }

  /** The scalar product, `Point * number`, keeping the point's colour. */
  function Scale(a: Point, k: real): Point {
    Point(k * a.x, k * a.y, a.color)
  }

  /** The right-hand operand of `*` as `_is_number` and `isinstance` classify it. */
  datatype Operand = Number(k: real) | PointOperand(p: Point) | Other

  /** What `*` yields: a Point, a number, or Python's NotImplemented. */
  datatype Product = ScalarProduct(point: Point) | DotProduct(value: real) | NotImplemented

  /** `__mul__`: numbers give the scalar product, Points the dot product,
      anything else NotImplemented. */
  function Mul(self: Point, other: Operand): (r: Product)
    ensures other.Number? <==> r.ScalarProduct?
    ensures other.PointOperand? <==> r.DotProduct?
    ensures other.Other? <==> r.NotImplemented?
    ensures other.Number? ==>
      r.point.x == other.k * self.x && r.point.y == other.k * self.y && r.point.color == self.color
    ensures other.PointOperand? ==> r.value == self.x * other.p.x + self.y * other.p.y
  {
    match other
    case Number(k) => ScalarProduct(Point(k * self.x, k * self.y, self.color))
    case PointOperand(p) => DotProduct(Dot(self, p))
    case Other => NotImplemented
  }

  /** `__rmul__`: `other * self` when `other` did not know how to multiply. */
  function RMul(self: Point, other: Operand): (r: Product)
    ensures other.Number? ==> r == ScalarProduct(Point(other.k * self.x, other.k * self.y, self.color))
    ensures other.PointOperand? ==> r == DotProduct(other.p.x * self.x + other.p.y * self.y)
    ensures other.Other? ==> r.NotImplemented?
  {
    Mul(self, other)
  }

  /** Python's `left * right` where at least one side may be a Point: the left
      Point's `__mul__` is tried first; a number on the left defers to the
      right Point's `__rmul__`. Products of two non-Points are not Point's
      business and give NotImplemented. */
  function Times(left: Operand, right: Operand): (r: Product)
    ensures (left.PointOperand? && right.PointOperand?) <==> r.DotProduct?
    ensures r.DotProduct? ==> r.value == left.p.x * right.p.x + left.p.y * right.p.y
    ensures ((left.PointOperand? && right.Number?) || (left.Number? && right.PointOperand?)) <==> r.ScalarProduct?
    ensures left.PointOperand? && right.Number? ==>
      r.point == Point(right.k * left.p.x, right.k * left.p.y, left.p.color)
    ensures left.Number? && right.PointOperand? ==>
      r.point == Point(left.k * right.p.x, left.k * right.p.y, right.p.color)
  {
    match left
    case PointOperand(p) => Mul(p, right)
    case _ => if right.PointOperand? then RMul(right.p, left) else NotImplemented
  }

  /** `a + b == b + a` under `__eq__`; as values they are equal exactly when
      the colours agree, since the sum keeps the left colour. */
  lemma AddCommutes(a: Point, b: Point)
    ensures Eq(Add(a, b), Add(b, a))
    ensures Add(a, b) == Add(b, a) <==> a.color == b.color
  {
  }

  /** `a * b == b * a` for the dot product. */
  lemma DotCommutes(a: Point, b: Point)
    ensures Times(PointOperand(a), PointOperand(b)) == Times(PointOperand(b), PointOperand(a))
    ensures Times(PointOperand(a), PointOperand(b)) == DotProduct(Dot(a, b))
  {
  }

  /** `k * a == a * k`: both give the scalar product with a's colour. */
  lemma ScalarCommutes(a: Point, k: real)
    ensures Times(Number(k), PointOperand(a)) == Times(PointOperand(a), Number(k))
    ensures Times(Number(k), PointOperand(a)) == ScalarProduct(Scale(a, k))
  {
  }

  /** Subtraction is addition of the negation, colour included. */
  lemma SubIsAddNeg(a: Point, b: Point)
    ensures Sub(a, b) == Add(a, Neg(b))
  {
  }

  /** `a - a` is the origin. */
  lemma SubSelfIsOrigin(a: Point)
    ensures Eq(Sub(a, a), Point(0.0, 0.0, None))
  {
  }

  /** `__eq__` is an equivalence that identifies exactly the points differing
      only in colour. */
  lemma EqIsCoordinateEquality(a: Point, b: Point, c: Point)
    ensures Eq(a, a)
    ensures Eq(a, b) ==> Eq(b, a)
    ensures Eq(a, b) && Eq(b, c) ==> Eq(a, c)
    ensures Eq(a, b) && a.color == b.color <==> a == b
  {
  }

  /** The module's own checks on Point(3, 4) and Point(5.0, -1.0). */
  lemma PinnedPointValues()
    ensures Add(At(3.0, 4.0), At(5.0, -1.0)).x == 8.0
    ensures Times(PointOperand(At(3.0, 4.0)), PointOperand(At(5.0, -1.0))) == DotProduct(11.0)
    ensures var r := Times(PointOperand(At(3.0, 4.0)), Number(2.0)); r.ScalarProduct? && Eq(r.point, At(6.0, 8.0))
    ensures var r := Times(Number(3.0), PointOperand(At(5.0, -1.0))); r.ScalarProduct? && Eq(r.point, At(15.0, -3.0))
  {
  }
}

=== FILE: shapes.dfy ===
/** The shapes of drawing.py and the canvas calls each one's `_render` makes.
    A shape is a value: its anchor (x, y), its style, its geometry, and the
    drawing it was added to, if any. */
module Shapes {
  import opened Wrappers
  import opened Canvas
  import opened Points
  import opened Averages
  import opened CrudeLines

  /** Stands for the identity of a Drawing object, which `Drawing.add`
      stores in the shape's `drawing` attribute. */
  type DrawingRef = nat

  /** `color` (the fill colour), `outline` (the outline colour) and
      `line_width`, as `Shape.__init__` stores them. */
  datatype Style = Style(color: Color, outline: Color, lineWidth: real)

  /** What each subclass adds to `Shape`. A Point drawn as a shape (`Dot`)
      needs nothing beyond the anchor. */
  datatype Geometry =
    | Dot
    | CircleGeom(radius: real)
    | LineGeom(p0: Point, p1: Point)
    | PolygonGeom(points: seq<Point>)
    | TextGeom(position: Point, text: string, face: string)
    | RectangleGeom(p0: Point, p1: Point, rectWidth: real, rectHeight: real)
    | CrudeLineGeom(p0: Point, p1: Point, crudity: real, curve: Bezier)

  datatype Shape = Shape(x: real, y: real, style: Style, geom: Geometry, owner: Option<DrawingRef>)

  /** Circles, rectangles and polygons: the shapes with optional fill and outline. */
  predicate IsFillable(s: Shape) {
    s.geom.CircleGeom? || s.geom.RectangleGeom? || s.geom.PolygonGeom?
  }

  // ---------------------------------------------------------------- constructors

  /** A `Point` used as a shape: `Shape.__init__(x, y, color)` with no outline
      and the default line width. */
  function PointShape(p: Point): (r: Shape)
    ensures r.owner.None? && r.geom.Dot?
    ensures r.x == p.x && r.y == p.y && r.style.color == p.color && r.style.outline.None?
  {
    Shape(p.x, p.y, Style(p.color, None, DefaultLineWidth), Dot, None)
  }

  /** `Circle(center, radius, color, outline, line_width)`: anchored at the centre. */
  function Circle(center: Point, radius: real, color: Color, outline: Color, lineWidth: real): (r: Shape)
    ensures r.owner.None? && r.geom == CircleGeom(radius)
    ensures r.style == Style(color, outline, lineWidth)
    ensures Eq(Point(r.x, r.y, None), center)
  {
    Shape(center.x, center.y, Style(color, outline, lineWidth), CircleGeom(radius), None)
  }

  /** `Line(p0, p1, color, line_width)`: anchored at the midpoint, no outline. */
  function Line(p0: Point, p1: Point, color: Color, lineWidth: real): (r: Shape)
    ensures r.owner.None? && r.geom == LineGeom(p0, p1)
    ensures r.style == Style(color, None, lineWidth)
    ensures r.x - p0.x == p1.x - r.x && r.y - p0.y == p1.y - r.y
  {
    Shape((p0.x + p1.x) / 2.0, (p0.y + p1.y) / 2.0, Style(color, None, lineWidth), LineGeom(p0, p1), None)
  }

  function Xs(points: seq<Point>): (r: seq<real>)
    ensures |r| == |points| && forall i :: 0 <= i < |points| ==> r[i] == points[i].x
  {
    seq(|points|, i requires 0 <= i < |points| => points[i].x)
  }

  function Ys(points: seq<Point>): (r: seq<real>)
    ensures |r| == |points| && forall i :: 0 <= i < |points| ==> r[i] == points[i].y
  {
    seq(|points|, i requires 0 <= i < |points| => points[i].y)
  }

  /** `Polygon(points, color, outline, line_width)`: anchored at the centroid,
      `(_average(xs), _average(ys))`, so an empty point list divides by zero. */
  function Polygon(points: seq<Point>, color: Color, outline: Color, lineWidth: real): (r: Result<Shape, Error>)
    ensures r.Failure? <==> |points| == 0
    ensures r.Failure? ==> r.error == ZeroDivision
    ensures r.Success? ==> r.value.owner.None? && r.value.geom == PolygonGeom(points)
    ensures r.Success? ==> r.value.style == Style(color, outline, lineWidth)
    ensures r.Success? ==> (r.value.x * (|points| as real) == Sum(Xs(points))
                            && r.value.y * (|points| as real) == Sum(Ys(points)))
  {
    match (Average(Xs(points)), Average(Ys(points)))
    case (Success(x), Success(y)) =>
      Success(Shape(x, y, Style(color, outline, lineWidth), PolygonGeom(points), None))
    case (Failure(e), _) => Failure(e)
    case (_, Failure(e)) => Failure(e)
  }

  /** `Text(position, text, face, color)`: anchored at the position. */
  function Text(position: Point, text: string, face: string, color: Color): (r: Shape)
    ensures r.owner.None? && r.geom == TextGeom(position, text, face)
    ensures r.x == position.x && r.y == position.y
    ensures r.style == Style(color, None, DefaultLineWidth)
  {
    Shape(position.x, position.y, Style(color, None, DefaultLineWidth), TextGeom(position, text, face), None)
  }

  /** `Rectangle(p0, p1, color, outline, line_width)`: anchored at the middle,
      with the signed extents `p1.x - p0.x` and `p1.y - p0.y`. */
  function Rectangle(p0: Point, p1: Point, color: Color, outline: Color, lineWidth: real): (r: Shape)
    ensures r.owner.None? && r.geom.RectangleGeom? && r.geom.p0 == p0 && r.geom.p1 == p1
    ensures r.style == Style(color, outline, lineWidth)
    ensures p0.x + r.geom.rectWidth == p1.x && p0.y + r.geom.rectHeight == p1.y
    ensures r.x - p0.x == p1.x - r.x && r.y - p0.y == p1.y - r.y
  {
    Shape((p0.x + p1.x) / 2.0, (p0.y + p1.y) / 2.0, Style(color, outline, lineWidth),
          RectangleGeom(p0, p1, p1.x - p0.x, p1.y - p0.y), None)
  }

  /** `CrudeLine(p0, p1, color, line_width, crudity)` with its random draws and
      direction supplied; anchored at the midpoint of A and D, the corrected
      anchor (see `Anchor`). */
  function CrudeLine(p0: Point, p1: Point, color: Color, lineWidth: real, crudity: real,
                     draws: Draws, dir: Direction): (r: Result<Shape, Error>)
    ensures r.Failure? <==> p0.x == p1.x && p0.y == p1.y
    ensures r.Success? ==> r.value.owner.None? && r.value.style == Style(color, None, lineWidth)
    ensures r.Success? ==> r.value.geom == CrudeLineGeom(p0, p1, crudity, ControlPoints(p0, p1, crudity, draws, dir).value)
    ensures r.Success? ==>
      var bz := r.value.geom.curve;
      r.value.x - bz.a.x == bz.d.x - r.value.x && r.value.y - bz.a.y == bz.d.y - r.value.y
  {
    match ControlPoints(p0, p1, crudity, draws, dir)
    case Failure(e) => Failure(e)
    case Success(bz) =>
      var anchor := Anchor(bz);
      Success(Shape(anchor.x, anchor.y, Style(color, None, lineWidth),
                    CrudeLineGeom(p0, p1, crudity, bz), None))
  }

  /** `CrudeLine(...)` exactly as written, with the anchor `AnchorAsWritten`:
      the same shape as `CrudeLine` except for the anchor's y, which is off
      by half of A's y. */
  function CrudeLineAsWritten(p0: Point, p1: Point, color: Color, lineWidth: real, crudity: real,
                              draws: Draws, dir: Direction): (r: Result<Shape, Error>)
    ensures r.Failure? <==> CrudeLine(p0, p1, color, lineWidth, crudity, draws, dir).Failure?
    ensures r.Success? ==>
      var c := CrudeLine(p0, p1, color, lineWidth, crudity, draws, dir).value;
      r.value == c.(y := c.y + c.geom.curve.a.y / 2.0)
  {
    match ControlPoints(p0, p1, crudity, draws, dir)
    case Failure(e) => Failure(e)
    case Success(bz) =>
      var anchor := AnchorAsWritten(bz);
      Success(Shape(anchor.x, anchor.y, Style(color, None, lineWidth),
                    CrudeLineGeom(p0, p1, crudity, bz), None))
  }

  // ---------------------------------------------------------------- rendering

  /** `canvas.fill_style = color` then the fill, when the colour is truthy. */
  function FillIf(color: Color, paint: Command): Trace {
    if Truthy(color) then [SetFillStyle(color), paint] else []
  }

  /** `canvas.stroke_style = outline`, optionally `canvas.line_width = ...`,
      then the stroke, when the outline colour is truthy. */
  function StrokeIf(outline: Color, width: Option<real>, paint: Command): Trace {
    if Truthy(outline) then
      [SetStrokeStyle(outline)] + (if width.Some? then [SetLineWidth(width.value)] else []) + [paint]
    else []
  }

  /** The conditional fill and outline shared by circles, rectangles and polygons. */
  function Painted(color: Color, fillPaint: Command, outline: Color, width: Option<real>, strokePaint: Command): Trace {
    FillIf(color, fillPaint) + StrokeIf(outline, width, strokePaint)
  }

  /** `Polygon._trace`: nothing for an empty point list, else a closed path
      through the points in order. */
  function PolygonPath(points: seq<Point>): (r: Trace)
    ensures |points| == 0 ==> r == []
    ensures |points| > 0 ==>
      && |r| == |points| + 2
      && r[0] == BeginPath
      && r[1] == MoveTo(points[0].x, points[0].y)
      && (forall i :: 1 <= i < |points| ==> r[i + 1] == LineTo(points[i].x, points[i].y))
      && r[|r| - 1] == ClosePath
  {
    if |points| == 0 then []
    else [BeginPath, MoveTo(points[0].x, points[0].y)] + LineTos(points[1..]) + [ClosePath]
  }

  /** One `line_to` per point, in order. */
  function LineTos(points: seq<Point>): (r: Trace)
    ensures |r| == |points|
    ensures forall i :: 0 <= i < |points| ==> r[i] == LineTo(points[i].x, points[i].y)
  {
    if |points| == 0 then [] else [LineTo(points[0].x, points[0].y)] + LineTos(points[1..])
  }

  /** `Line._render` and `CrudeLine._render`: a path from `(x, y)` along
      one segment, stroked in the given colour and width. */
  function StrokedPath(width: real, color: Color, x: real, y: real, segment: Command): (r: Trace)
    requires segment.LineTo? || segment.BezierCurveTo?
    ensures |r| == 6 && r[0] == BeginPath && r[3] == MoveTo(x, y) && r[4] == segment && r[|r| - 1] == Stroke
    ensures NoStackOps(r) && !HasFill(r) && HasStroke(r)
    ensures forall c :: c in r ==> !c.SetFillStyle? && !c.Clear?
    ensures forall c :: c in r && c.SetStrokeStyle? ==> c.style == color
    ensures forall c :: c in r && c.SetLineWidth? ==> c.width == width
    ensures SetLineWidth(width) in r
  {
    var r := [BeginPath, SetLineWidth(width), SetStrokeStyle(color), MoveTo(x, y), segment, Stroke];
    assert IsStrokeCmd(r[5]);
    r
  }

  /** `Point._render` and `Text._render`: the preliminary calls, the fill
      colour, and one fill as the last call. */
  function FilledMark(prefix: Trace, color: Color, paint: Command): (r: Trace)
    requires IsFillCmd(paint)
    requires forall c :: c in prefix ==> c.SetFont?
    ensures |r| == |prefix| + 2 && r[..|prefix|] == prefix && r[|r| - 1] == paint
    ensures NoStackOps(r) && HasFill(r) && !HasStroke(r)
    ensures forall c :: c in r ==> !c.SetStrokeStyle? && !c.SetLineWidth? && !c.Clear?
    ensures forall c :: c in r && c.SetFillStyle? ==> c.style == color
    ensures forall i :: 0 <= i < |r| && IsFillCmd(r[i]) ==> i == |r| - 1
  {
    var r := prefix + [SetFillStyle(color), paint];
    assert IsFillCmd(r[|r| - 1]);
    assert forall i :: 0 <= i < |prefix| ==> r[i] == prefix[i] && r[i] in prefix;
    r
  }

  /** `Polygon._render`: a path, then its fill and outline. */
  function PaintedPath(path: Trace, color: Color, outline: Color, width: real): (r: Trace)
    requires NoStackOps(path)
    requires forall c :: c in path ==> c.BeginPath? || c.MoveTo? || c.LineTo? || c.ClosePath?
    ensures |path| <= |r| && r[..|path|] == path
    ensures NoStackOps(r)
    ensures forall c :: c in r && (IsFillCmd(c) || IsStrokeCmd(c)) ==> c == Fill || c == Stroke
    ensures forall c :: c in r ==> !c.Clear?
    ensures forall c :: c in r && c.SetFillStyle? ==> c.style == color
    ensures forall c :: c in r && c.SetStrokeStyle? ==> c.style == outline
    ensures forall c :: c in r && c.SetLineWidth? ==> c.width == width
    ensures SetLineWidth(width) in r <==> Truthy(outline)
  {
    var painted := Painted(color, Fill, outline, Some(width), Stroke);
    PaintedFacts(color, Fill, outline, Some(width), Stroke);
    PaintedContents(color, Fill, outline, Some(width), Stroke);
    NoStackOpsConcat(path, painted);
    assert (path + painted)[..|path|] == path;
    path + painted
  }

  /** The canvas calls of each subclass's `_render`. A circle's outline is
      stroked with whatever line width the canvas has: `Circle._render` does
      not set one. */
  function ShapeTrace(s: Shape): (r: Trace)
    ensures NoStackOps(r)
    ensures s.geom.Dot? || s.geom.TextGeom? ==> HasFill(r) && !HasStroke(r)
    ensures s.geom.LineGeom? || s.geom.CrudeLineGeom? ==> !HasFill(r) && HasStroke(r)
    ensures s.geom.LineGeom? || s.geom.CrudeLineGeom? ==> r[0] == BeginPath && r[|r| - 1] == Stroke
    // the styles set are the shape's own
    ensures forall c :: c in r && c.SetFillStyle? ==> c.style == s.style.color
    ensures forall c :: c in r && c.SetStrokeStyle? ==>
      c.style == if IsFillable(s) then s.style.outline else s.style.color
    ensures forall c :: c in r && c.SetLineWidth? ==> c.width == s.style.lineWidth && !s.geom.CircleGeom?
    ensures SetLineWidth(s.style.lineWidth) in r <==>
      || s.geom.LineGeom? || s.geom.CrudeLineGeom?
      || ((s.geom.RectangleGeom? || s.geom.PolygonGeom?) && Truthy(s.style.outline))
    // nothing but the shape's own calls
    ensures forall c :: c in r ==> !c.Clear?
    ensures s.geom.Dot? || s.geom.TextGeom? ==> forall i :: 0 <= i < |r| && IsFillCmd(r[i]) ==> i == |r| - 1
    // where each shape paints
    ensures s.geom.Dot? ==> forall c :: c in r && IsFillCmd(c) ==> c == FillArc(s.x, s.y, 1.0)
    ensures s.geom.CircleGeom? ==> forall c :: c in r && (IsFillCmd(c) || IsStrokeCmd(c)) ==>
      c == FillArc(s.x, s.y, s.geom.radius) || c == StrokeArc(s.x, s.y, s.geom.radius)
    ensures s.geom.RectangleGeom? ==> forall c :: c in r && (IsFillCmd(c) || IsStrokeCmd(c)) ==>
      var g := s.geom;
      c == FillRect(g.p0.x, g.p0.y, g.rectWidth, g.rectHeight) || c == StrokeRect(g.p0.x, g.p0.y, g.rectWidth, g.rectHeight)
    ensures s.geom.PolygonGeom? ==>
      && |PolygonPath(s.geom.points)| <= |r|
      && r[..|PolygonPath(s.geom.points)|] == PolygonPath(s.geom.points)
      && forall c :: c in r && (IsFillCmd(c) || IsStrokeCmd(c)) ==> c == Fill || c == Stroke
    ensures s.geom.LineGeom? ==>
      |r| == 6 && r[3] == MoveTo(s.geom.p0.x, s.geom.p0.y) && r[4] == LineTo(s.geom.p1.x, s.geom.p1.y)
    ensures s.geom.TextGeom? ==>
      var g := s.geom;
      r[0] == SetFont(g.face) && r[|r| - 1] == FillText(g.text, g.position.x, g.position.y)
    ensures s.geom.CrudeLineGeom? ==>
      var bz := s.geom.curve;
      |r| == 6 && r[3] == MoveTo(bz.a.x, bz.a.y) && r[4] == BezierCurveTo(bz.b.x, bz.b.y, bz.c.x, bz.c.y, bz.d.x, bz.d.y)
  {
    match s.geom
    case Dot =>
      FilledMark([], s.style.color, FillArc(s.x, s.y, 1.0))
    case CircleGeom(radius) =>
      PaintedFacts(s.style.color, FillArc(s.x, s.y, radius), s.style.outline, None, StrokeArc(s.x, s.y, radius));
      PaintedContents(s.style.color, FillArc(s.x, s.y, radius), s.style.outline, None, StrokeArc(s.x, s.y, radius));
      Painted(s.style.color, FillArc(s.x, s.y, radius), s.style.outline, None, StrokeArc(s.x, s.y, radius))
    case LineGeom(p0, p1) =>
      StrokedPath(s.style.lineWidth, s.style.color, p0.x, p0.y, LineTo(p1.x, p1.y))
    case PolygonGeom(points) =>
      PathIsUnpainted(points);
      PaintedPath(PolygonPath(points), s.style.color, s.style.outline, s.style.lineWidth)
    case TextGeom(position, text, face) =>
      FilledMark([SetFont(face)], s.style.color, FillText(text, position.x, position.y))
    case RectangleGeom(p0, _, w, h) =>
      PaintedFacts(s.style.color, FillRect(p0.x, p0.y, w, h), s.style.outline, Some(s.style.lineWidth), StrokeRect(p0.x, p0.y, w, h));
      PaintedContents(s.style.color, FillRect(p0.x, p0.y, w, h), s.style.outline, Some(s.style.lineWidth), StrokeRect(p0.x, p0.y, w, h));
      Painted(s.style.color, FillRect(p0.x, p0.y, w, h), s.style.outline, Some(s.style.lineWidth), StrokeRect(p0.x, p0.y, w, h))
    case CrudeLineGeom(_, _, _, bz) =>
      StrokedPath(s.style.lineWidth, s.style.color, bz.a.x, bz.a.y,
                  BezierCurveTo(bz.b.x, bz.b.y, bz.c.x, bz.c.y, bz.d.x, bz.d.y))
  }

  /** `Shape.render`: the shape's calls between `save` and `restore`, and
      nothing at all for a shape that belongs to no drawing. */
  function ShapeRender(s: Shape): (r: Trace)
    ensures r == [] <==> s.owner.None?
    ensures s.owner.Some? ==> |r| >= 2 && r[0] == Save && r[|r| - 1] == Restore
    ensures Balanced(r)
  {
    if s.owner.Some? then
      ShapeTraceWellFormed(s);
      NoStackOpsBalanced(ShapeTrace(s));
      BalancedWrap(ShapeTrace(s));
      [Save] + ShapeTrace(s) + [Restore]
    else
      NoStackOpsBalanced([]);
      []
  }

  /** What a shape draws does not depend on which drawing holds it. */
  lemma ShapeTraceIgnoresOwner(s: Shape, o: Option<DrawingRef>)
    ensures ShapeTrace(s.(owner := o)) == ShapeTrace(s)
  {
    var s' := s.(owner := o);
    assert s'.x == s.x && s'.y == s.y && s'.style == s.style && s'.geom == s.geom;
  }

  // ---------------------------------------------------------------- trace lemmas

  /** A trace whose fills all come after a fill-style assignment at index
      `f` and whose strokes all come after a stroke-style assignment at
      index `k` (a negative index: there are none of that kind). */
  lemma StyledAt(t: Trace, f: int, k: int)
    requires f < 0 || (f < |t| && t[f].SetFillStyle?)
    requires k < 0 || (k < |t| && t[k].SetStrokeStyle?)
    requires forall i :: 0 <= i < |t| && IsFillCmd(t[i]) ==> 0 <= f < i
    requires forall i :: 0 <= i < |t| && IsStrokeCmd(t[i]) ==> 0 <= k < i
    ensures StylesSetBeforeUse(t)
  {
  }

  lemma HasPaintConcat(a: Trace, b: Trace)
    ensures HasFill(a + b) <==> HasFill(a) || HasFill(b)
    ensures HasStroke(a + b) <==> HasStroke(a) || HasStroke(b)
  {
    var t := a + b;
    if HasFill(t) {
      var i :| 0 <= i < |t| && IsFillCmd(t[i]);
      if i >= |a| { assert IsFillCmd(b[i - |a|]); } else { assert IsFillCmd(a[i]); }
    }
    if HasFill(a) {
      var i :| 0 <= i < |a| && IsFillCmd(a[i]);
      assert t[i] == a[i];
    }
    if HasFill(b) {
      var i :| 0 <= i < |b| && IsFillCmd(b[i]);
      assert t[i + |a|] == b[i];
    }
    if HasStroke(t) {
      var i :| 0 <= i < |t| && IsStrokeCmd(t[i]);
      if i >= |a| { assert IsStrokeCmd(b[i - |a|]); } else { assert IsStrokeCmd(a[i]); }
    }
    if HasStroke(a) {
      var i :| 0 <= i < |a| && IsStrokeCmd(a[i]);
      assert t[i] == a[i];
    }
    if HasStroke(b) {
      var i :| 0 <= i < |b| && IsStrokeCmd(b[i]);
      assert t[i + |a|] == b[i];
    }
  }

  lemma StylesConcat(a: Trace, b: Trace)
    requires StylesSetBeforeUse(a) && StylesSetBeforeUse(b)
    ensures StylesSetBeforeUse(a + b)
  {
    var t := a + b;
    forall i | 0 <= i < |t| && IsFillCmd(t[i]) ensures exists j :: 0 <= j < i && t[j].SetFillStyle? {
      if i >= |a| {
        assert IsFillCmd(b[i - |a|]);
        var j :| 0 <= j < i - |a| && b[j].SetFillStyle?;
        assert t[j + |a|] == b[j];
      } else {
        assert IsFillCmd(a[i]);
        var j :| 0 <= j < i && a[j].SetFillStyle?;
        assert t[j] == a[j];
      }
    }
    forall i | 0 <= i < |t| && IsStrokeCmd(t[i]) ensures exists j :: 0 <= j < i && t[j].SetStrokeStyle? {
      if i >= |a| {
        assert IsStrokeCmd(b[i - |a|]);
        var j :| 0 <= j < i - |a| && b[j].SetStrokeStyle?;
        assert t[j + |a|] == b[j];
      } else {
        assert IsStrokeCmd(a[i]);
        var j :| 0 <= j < i && a[j].SetStrokeStyle?;
        assert t[j] == a[j];
      }
    }
  }

  lemma OrderConcat(a: Trace, b: Trace)
    requires FillsBeforeStrokes(a) && FillsBeforeStrokes(b)
    requires !HasStroke(a) || !HasFill(b)
    ensures FillsBeforeStrokes(a + b)
  {
    var t := a + b;
    forall i, j | 0 <= i < |t| && 0 <= j < |t| && IsFillCmd(t[i]) && IsStrokeCmd(t[j]) ensures i < j {
      if i >= |a| && j >= |a| {
        assert IsFillCmd(b[i - |a|]) && IsStrokeCmd(b[j - |a|]);
      } else if i >= |a| {
        assert false;
      } else if j < |a| {
        assert IsFillCmd(a[i]) && IsStrokeCmd(a[j]);
      }
    }
  }

  lemma NoStackOpsConcat(a: Trace, b: Trace)
    requires NoStackOps(a) && NoStackOps(b)
    ensures NoStackOps(a + b)
  {
  }

  lemma PathIsUnpainted(points: seq<Point>)
    ensures NoStackOps(PolygonPath(points)) && StylesSetBeforeUse(PolygonPath(points))
    ensures FillsBeforeStrokes(PolygonPath(points))
    ensures !HasFill(PolygonPath(points)) && !HasStroke(PolygonPath(points))
    ensures forall c :: c in PolygonPath(points) ==> c.BeginPath? || c.MoveTo? || c.LineTo? || c.ClosePath?
  {
    var t := PolygonPath(points);
    forall i | 0 <= i < |t|
      ensures t[i].BeginPath? || t[i].MoveTo? || t[i].LineTo? || t[i].ClosePath?
    {
      if 2 <= i < |t| - 1 {
        assert t[i] == LineTo(points[i - 1].x, points[i - 1].y);
      }
    }
  }

  lemma FillIfFacts(color: Color, paint: Command)
    requires IsFillCmd(paint)
    ensures var t := FillIf(color, paint);
      && NoStackOps(t) && StylesSetBeforeUse(t) && FillsBeforeStrokes(t)
      && (HasFill(t) <==> Truthy(color)) && !HasStroke(t)
  {
    var t := FillIf(color, paint);
    if Truthy(color) {
      assert IsFillCmd(t[1]);
      StyledAt(t, 0, -1);
    } else {
      StyledAt(t, -1, -1);
    }
  }

  lemma StrokeIfFacts(outline: Color, width: Option<real>, paint: Command)
    requires IsStrokeCmd(paint)
    ensures var t := StrokeIf(outline, width, paint);
      && NoStackOps(t) && StylesSetBeforeUse(t) && FillsBeforeStrokes(t)
      && (HasStroke(t) <==> Truthy(outline)) && !HasFill(t)
  {
    var t := StrokeIf(outline, width, paint);
    if Truthy(outline) {
      assert IsStrokeCmd(t[|t| - 1]);
      StyledAt(t, -1, 0);
    } else {
      StyledAt(t, -1, -1);
    }
  }

  /** The conditional fill and outline set only the given colours and width
      and paint only with the given commands. */
  lemma PaintedContents(color: Color, fillPaint: Command, outline: Color, width: Option<real>, strokePaint: Command)
    requires IsFillCmd(fillPaint) && IsStrokeCmd(strokePaint)
    ensures forall c :: c in Painted(color, fillPaint, outline, width, strokePaint) && c.SetFillStyle? ==>
      c.style == color
    ensures forall c :: c in Painted(color, fillPaint, outline, width, strokePaint) && c.SetStrokeStyle? ==>
      c.style == outline
    ensures forall c :: c in Painted(color, fillPaint, outline, width, strokePaint) && c.SetLineWidth? ==>
      width.Some? && c.width == width.value
    ensures forall c :: c in Painted(color, fillPaint, outline, width, strokePaint) && (IsFillCmd(c) || IsStrokeCmd(c)) ==>
      c == fillPaint || c == strokePaint
    ensures forall c :: c in Painted(color, fillPaint, outline, width, strokePaint) ==> !c.Clear?
    ensures width.Some? ==>
      (SetLineWidth(width.value) in Painted(color, fillPaint, outline, width, strokePaint) <==> Truthy(outline))
  {
  }

  /** The conditional fill and outline: a fill exactly when the colour is
      truthy, a stroke exactly when the outline is, each after its style. */
  lemma PaintedFacts(color: Color, fillPaint: Command, outline: Color, width: Option<real>, strokePaint: Command)
    requires IsFillCmd(fillPaint) && IsStrokeCmd(strokePaint)
    ensures var t := Painted(color, fillPaint, outline, width, strokePaint);
      && NoStackOps(t) && StylesSetBeforeUse(t) && FillsBeforeStrokes(t)
      && (HasFill(t) <==> Truthy(color))
      && (HasStroke(t) <==> Truthy(outline))
  {
    var f := FillIf(color, fillPaint);
    var k := StrokeIf(outline, width, strokePaint);
    FillIfFacts(color, fillPaint);
    StrokeIfFacts(outline, width, strokePaint);
    HasPaintConcat(f, k);
    StylesConcat(f, k);
    OrderConcat(f, k);
    NoStackOpsConcat(f, k);
  }

  /** Every shape's calls leave the save stack alone, set the style they
      paint with before painting, and paint fills before strokes. */
  lemma ShapeTraceWellFormed(s: Shape)
    ensures NoStackOps(ShapeTrace(s))
    ensures StylesSetBeforeUse(ShapeTrace(s))
    ensures FillsBeforeStrokes(ShapeTrace(s))
  {
    var t := ShapeTrace(s);
    match s.geom
    case Dot =>
      StyledAt(t, 0, -1);
    case CircleGeom(radius) =>
      PaintedFacts(s.style.color, FillArc(s.x, s.y, radius), s.style.outline, None, StrokeArc(s.x, s.y, radius));
    case LineGeom(p0, p1) =>
      StyledAt(t, -1, 2);
    case PolygonGeom(points) =>
      PolygonFacts(s, points);
    case TextGeom(_, _, _) =>
      StyledAt(t, 1, -1);
    case RectangleGeom(p0, _, w, h) =>
      PaintedFacts(s.style.color, FillRect(p0.x, p0.y, w, h), s.style.outline, Some(s.style.lineWidth), StrokeRect(p0.x, p0.y, w, h));
    case CrudeLineGeom(_, _, _, _) =>
      StyledAt(t, -1, 2);
  }

  /** A polygon: the path (empty for no points), then the conditional fill and outline. */
  lemma PolygonFacts(s: Shape, points: seq<Point>)
    requires s.geom == PolygonGeom(points)
    ensures var t := ShapeTrace(s);
      && NoStackOps(t) && StylesSetBeforeUse(t) && FillsBeforeStrokes(t)
      && (HasFill(t) <==> Truthy(s.style.color))
      && (HasStroke(t) <==> Truthy(s.style.outline))
  {
    var path := PolygonPath(points);
    var painted := Painted(s.style.color, Fill, s.style.outline, Some(s.style.lineWidth), Stroke);
    PathIsUnpainted(points);
    PaintedFacts(s.style.color, Fill, s.style.outline, Some(s.style.lineWidth), Stroke);
    HasPaintConcat(path, painted);
    StylesConcat(path, painted);
    OrderConcat(path, painted);
    NoStackOpsConcat(path, painted);
  }

  /** Circles, rectangles and polygons fill exactly when `color` is truthy and
      stroke exactly when `outline` is truthy, the fill first. */
  lemma FillAndOutlineIff(s: Shape)
    requires IsFillable(s)
    ensures HasFill(ShapeTrace(s)) <==> Truthy(s.style.color)
    ensures HasStroke(ShapeTrace(s)) <==> Truthy(s.style.outline)
    ensures FillsBeforeStrokes(ShapeTrace(s))
  {
    match s.geom
    case CircleGeom(radius) =>
      PaintedFacts(s.style.color, FillArc(s.x, s.y, radius), s.style.outline, None, StrokeArc(s.x, s.y, radius));
    case PolygonGeom(points) =>
      PolygonFacts(s, points);
    case RectangleGeom(p0, _, w, h) =>
      PaintedFacts(s.style.color, FillRect(p0.x, p0.y, w, h), s.style.outline, Some(s.style.lineWidth), StrokeRect(p0.x, p0.y, w, h));
  }

  /** A rectangle fills and strokes the box from p0 with the signed extents
      `p1 - p0`, so every painted box runs from p0 to p1 exactly, whichever
      corner p0 is; the fill appears exactly when `color` is truthy and the
      outline exactly when `outline` is. */
  lemma RectangleSpansCorners(p0: Point, p1: Point, color: Color, outline: Color, lineWidth: real)
    ensures var t := ShapeTrace(Rectangle(p0, p1, color, outline, lineWidth));
      && (FillRect(p0.x, p0.y, p1.x - p0.x, p1.y - p0.y) in t <==> Truthy(color))
      && (StrokeRect(p0.x, p0.y, p1.x - p0.x, p1.y - p0.y) in t <==> Truthy(outline))
      && (forall i :: 0 <= i < |t| && (t[i].FillRect? || t[i].StrokeRect?) ==>
            t[i].x == p0.x && t[i].y == p0.y && t[i].x + t[i].w == p1.x && t[i].y + t[i].h == p1.y)
  {
  }

  /** A polygon's anchor, the centroid, lies within any box that holds all
      of its points. */
  lemma PolygonCentroidInBox(points: seq<Point>, color: Color, outline: Color, lineWidth: real,
                             xlo: real, xhi: real, ylo: real, yhi: real)
    requires |points| > 0
    requires forall i :: 0 <= i < |points| ==> xlo <= points[i].x <= xhi && ylo <= points[i].y <= yhi
    ensures Polygon(points, color, outline, lineWidth).Success?
    ensures var s := Polygon(points, color, outline, lineWidth).value;
      xlo <= s.x <= xhi && ylo <= s.y <= yhi
  {
    AverageWithinBounds(Xs(points), xlo, xhi);
    AverageWithinBounds(Ys(points), ylo, yhi);
  }

  /** A crude line of crudity 0 starts its path at p0 and ends its curve at p1. */
  lemma ZeroCrudityLineRuns(p0: Point, p1: Point, color: Color, lineWidth: real, draws: Draws, dir: Direction)
    requires ValidDraws(draws) && DirectionOf(dir, p0, p1)
    ensures CrudeLine(p0, p1, color, lineWidth, 0.0, draws, dir).Success?
    ensures var t := ShapeTrace(CrudeLine(p0, p1, color, lineWidth, 0.0, draws, dir).value);
      && |t| == 6 && t[3] == MoveTo(p0.x, p0.y)
      && t[4].BezierCurveTo? && t[4].x3 == p1.x && t[4].y3 == p1.y
      && !HasFill(t) && HasStroke(t)
  {
    ZeroCrudityIsStraight(p0, p1, draws, dir);
    var t := ShapeTrace(CrudeLine(p0, p1, color, lineWidth, 0.0, draws, dir).value);
    assert IsStrokeCmd(t[5]);
  }

  /** The anchor is bookkeeping only: the crude line as written and as
      corrected make exactly the same canvas calls. */
  lemma CrudeLineAnchorNotDrawn(p0: Point, p1: Point, color: Color, lineWidth: real, crudity: real,
                                draws: Draws, dir: Direction)
    requires p0.x != p1.x || p0.y != p1.y
    ensures CrudeLineAsWritten(p0, p1, color, lineWidth, crudity, draws, dir).Success?
    ensures ShapeTrace(CrudeLineAsWritten(p0, p1, color, lineWidth, crudity, draws, dir).value)
         == ShapeTrace(CrudeLine(p0, p1, color, lineWidth, crudity, draws, dir).value)
  {
  }
}

=== FILE: wrappers.dfy ===
/** Option and Result for the values the drawing library may leave unset,
    and the errors its constructors run into. */
module Wrappers {

  /** Python's `None` or a value. */
  datatype Option<+T> = None | Some(value: T)

  /** The outcome of a computation that may fail. */
  datatype Result<+T, +E> = Success(value: T) | Failure(error: E)

  /** The failures of the modelled operations.
      ZeroDivision: `_average` of an empty sequence (Python raises ZeroDivisionError).
      DegenerateLine: a CrudeLine whose endpoints coincide has no direction. */
  datatype Error = ZeroDivision | DegenerateLine
}
